=== FILE: README.md ===
# Angular Material theming registry and gesture machine, in Dafny

This project models two services of Angular Material's core as pure functions over explicit state.

The first is the theming provider (`$mdThemingProvider`). It keeps two global registries:
- palettes, which are maps from hue keys to colours;
- themes, which are a name plus a primary, an accent and a warn colour.

The provider validates, defines and extends palettes. It registers themes, optionally inheriting from a parent. Each theme has three chainable colour setters. Before CSS generation, every palette's contrast settings are sanitised. The themable CSS template is cut into rules and sorted into warn, accent and primary buckets. Finally each theme's palettes are checked and one rule set is emitted per hue. `dashToCamelCase` is the small string transform that sits beside these.

The second is the gesture service (`$mdGesture`). It keeps one active pointer session and the last finished one. Elements listen for tap, drag and swipe through a per-element behaviour object. Start, move and end events drive the session and trigger `$mdGesture.*` handlers on the element.

Modules:
- `Base`: `Option` and `Result`.
- `Strings`: `indexOf`, `join` and `trim` as used by the source.
- `Palettes`: the hue keys, palette validation, definition, extension and contrast sanitisation.
- `Themes`: theme records, registration, the colour setters, the provider's default theme and the palette check of CSS generation.
- `CssRules`: the rule split and the classification of rules.
- `CamelCase`: `dashToCamelCase`.
- `Gesture`: the pointer-session machine, and `listen`/`stopListening`/cleanup.

Registries become values. A JavaScript `throw` becomes an `Err` value, or a `threw` flag when the state changed before the throw. Mutation of a shared object is modelled by identity:
- themes are named by their registry key, and `Theme.owner` is the key of the object that a theme's setters write to;
- gesture behaviour objects are entries of `State.sets`, and handles and sessions refer to them by index.

Clock readings, page coordinates and the palettes loaded from CSS are parameters.

## Model

| member | source | states |
|---|---|---|
| Strings.TrimStart | src/core/services/theming/theming.js:270 | the result is a suffix of the input, every removed character is JavaScript white space, and the result does not start with one |
| Strings.TrimEnd | src/core/services/theming/theming.js:270 | the result is a prefix of the input, every removed character is white space, and the result does not end with one |
| Strings.Trim | src/core/services/theming/theming.js:270 | the result is the input without its leading and trailing white space: it occurs in the input with only white space before and after it, and it neither starts nor ends with white space |
| Strings.Contains | src/core/services/theming/theming.js:278-281 | `s.indexOf(sub) > -1` as a search from each position in turn; `Strings.ContainsOccurs` states what it finds |
| Strings.ContainsOccurs | src/core/services/theming/theming.js:278-281 | the search succeeds iff `sub` occurs at some index of `s` |
| Strings.ConcatIsJoin | src/core/services/theming/theming.js:288-290 | `join('')` of a list of rules is the rules written one after another: the separator-free `Join` agrees with `Concat` on every list |
| Palettes.MissingFrom | src/core/services/theming/theming.js:107-109 | a key is reported exactly when it is one of the given keys and the palette has no truthy value for it |
| Palettes.MissingFromEmptyPalette | src/core/services/theming/theming.js:107-109 | against `{}`, every key is reported, in order |
| Palettes.CheckPaletteValid | src/core/services/theming/theming.js:106-116 | the palette is returned unchanged iff all fourteen hue keys have truthy values; otherwise the error names this palette and lists exactly the missing hue keys, at least one |
| Palettes.DefinePalette | src/core/services/theming/theming.js:93-96 | the palette is stored under its name iff it is given and valid; other palettes are untouched; a missing map fails with all fourteen keys missing |
| Palettes.EmptyPaletteFails | src/core/services/theming/theming.js:94-95 | validating `{}` fails and names all fourteen hue keys |
| Palettes.ExtendPalette | src/core/services/theming/theming.js:101-103 | on success the result has the keys of the stored palette and the map, map entries win, and stored entries fill the rest; success holds iff every hue key is truthy in that overlay |
| Palettes.ExtendValidWithTruthyValues | src/core/services/theming/theming.js:101-103 | extending a valid stored palette with truthy values always succeeds |
| Palettes.ExtendUnknownPalette | src/core/services/theming/theming.js:101-103 | extending a name with no stored palette validates the given map alone |
| Palettes.SanitizePalette | src/core/services/theming/theming.js:342-368 | the three contrast keys are removed and every other key is kept with its old value; the contrast is dark iff the default is `light` and the hue is in the dark list, or the default is not `light` and the hue is not in the light list; otherwise it is `white` |
| Palettes.ContrastOf | src/core/services/theming/theming.js:360-366 | the text colour is dark or `white`; it is dark iff the default is `light` and the dark list names the hue, or the default is not `light` and the light list does not name it |
| Palettes.Lists | src/core/services/theming/theming.js:362-364 | `(list \|\| []).indexOf(hue) > -1`: membership in a list of names, a substring search in a non-empty string, and false for a missing or empty value |
| Palettes.HueKeyKept | src/core/services/theming/theming.js:350-356 | a palette that carries all fourteen hue keys keeps each of them through sanitisation, since only the three contrast keys are deleted |
| Palettes.SanitizeAll | src/core/services/theming/theming.js:265 | every registered palette is sanitised and no palette is added or lost |
| Palettes.SanitizeWithoutContrastKeys | src/core/services/theming/theming.js:360-366 | a palette with no contrast settings gets the dark text colour on every hue |
| Palettes.StringListMatchesSubstring | src/core/services/theming/theming.js:362-364 | a contrast list given as a string is searched as a substring, so `'500'` lists hue `'50'` |
| Themes.RegisterTheme | src/core/services/theming/theming.js:122-132 | the registry gains exactly the name; an existing name returns its stored theme and changes nothing; otherwise the new theme is stored under the name, and with no registered parent it is a fresh theme owning its setters |
| Themes.ParentName | src/core/services/theming/theming.js:124 | the parent name is never empty; it is `default` iff no name, an empty name or `default` itself is given, and otherwise the given name |
| Themes.Overlay | src/core/services/theming/theming.js:128 | the result takes the parent's name and setters; each colour is the parent's where the parent has one and the theme's own otherwise |
| Themes.RegisterThemeKeepsWellFormed | src/core/services/theming/theming.js:122-132 | after registration every theme's setters still belong to a registered theme |
| Themes.RegisterThemeIdempotent | src/core/services/theming/theming.js:123 | registering a name a second time, with any parent, returns the first result and leaves the registry unchanged |
| Themes.OverlayOntoNew | src/core/services/theming/theming.js:127-128 | extending a new theme with a parent's own fields gives exactly the parent's fields |
| Themes.InheritedThemeCopiesParent | src/core/services/theming/theming.js:124-129 | a theme registered with a registered parent is a copy of the parent record, including its name and its setters |
| Themes.FirstOutside | src/core/services/theming/theming.js:148-157 | no key is found iff all keys are allowed; a found key is the first disallowed one |
| Themes.FirstInvalidValue | src/core/services/theming/theming.js:159-170 | nothing is found iff every key's hue value is one of the fourteen hue keys |
| Themes.DefaultsOverwriteAll | src/core/services/theming/theming.js:145 | when the caller names only default hues, `DEFAULT_HUES` overwrites every caller value |
| Themes.FirstOutsideSkipsDefaults | src/core/services/theming/theming.js:148-157 | the default hue names appended after the caller's keys never change which bad name is found |
| Themes.OrderWithinMerged | src/core/services/theming/theming.js:145-148 | every key in enumeration order is a key of the merged hues |
| Themes.DefaultValuesAreHues | src/core/services/theming/theming.js:159-170 | under the defaults no hue value fails the value check |
| Themes.DefaultValueIsHue | src/core/services/theming/theming.js:38-48 | each `DEFAULT_HUES` value is one of the fourteen hue keys |
| Themes.MergedHues | src/core/services/theming/theming.js:145 | with only default names from the caller, the merged hues are exactly `DEFAULT_HUES` |
| Themes.MergedOrder | src/core/services/theming/theming.js:148 | the keys enumerated by the setter's checks are exactly the keys of the merged hues |
| Themes.MergedWithinOrder | src/core/services/theming/theming.js:145-148 | every key of the merged hues is among the enumerated keys |
| Themes.InvalidHueNameOf | src/core/services/theming/theming.js:148-157 | the name check passes iff every caller hue name is a default one; otherwise it reports the first caller name that is not |
| Themes.FirstBadCallerName | src/core/services/theming/theming.js:148-157 | the search over the caller's keys finds nothing iff all names are default ones, and otherwise finds the first name that is not |
| Themes.InvalidHueValueOf | src/core/services/theming/theming.js:159-170 | the value check passes whenever the name check has passed |
| Themes.SetColor | src/core/services/theming/theming.js:141-173 | a setter call never adds or removes a theme; what it assigns, returns and throws is stated by the `SetColor*` lemmas below |
| Themes.CheckHues | src/core/services/theming/theming.js:148-170 | the checks pass iff every caller hue name is a default one, returning the setter's own theme; otherwise they throw the hue-name error for the first bad name |
| Themes.SetColorKeepsWellFormed | src/core/services/theming/theming.js:141-146 | after a setter call every theme's setters still belong to a registered theme |
| Themes.UpdateKeepsWellFormed | src/core/services/theming/theming.js:143-146 | replacing a theme by one with the same setters keeps every setter's target registered |
| Themes.SetColorAssignsFirst | src/core/services/theming/theming.js:143-146 | whatever the outcome, the setter's own object already has the colour `{name: paletteName, hues: caller hues overlaid by DEFAULT_HUES}`; nothing else changes |
| Themes.SetColorSucceeds | src/core/services/theming/theming.js:143-172 | the setter succeeds iff every caller hue name is a default one; it then returns its own object, whose colour has exactly `DEFAULT_HUES` |
| Themes.SetColorRejects | src/core/services/theming/theming.js:148-157 | a failing setter throws the hue-name error for the first caller name that is not a default one, naming the theme, the colour and the palette |
| Themes.SetColorNeverRejectsHueValue | src/core/services/theming/theming.js:159-170 | the hue-value error is never thrown |
| Themes.InheritedSetterWritesParent | src/core/services/theming/theming.js:134-143 | the setter of a theme that inherited from `default` writes to `default` and returns it; the new theme's own record is unchanged |
| Themes.SetColorWithoutHues | src/core/services/theming/theming.js:141-173 | a setter called without hues on a theme that owns its setters succeeds, returns that theme and sets the colour with `DEFAULT_HUES` |
| Themes.SetColors | src/core/services/theming/theming.js:58-61 | a chain of the three setters on a theme that owns its setters never adds or removes a theme; `Themes.SetColorsSucceeds` states the outcome |
| Themes.SetColorsSucceeds | src/core/services/theming/theming.js:58-61 | chaining the three setters on a theme that owns its setters succeeds and sets all three colours with the default hues |
| Themes.ProviderInit | src/core/services/theming/theming.js:55-61 | a successful setup keeps the palettes it was given; `Themes.ProviderInitDefaultTheme` states that it succeeds and what theme it registers |
| Themes.ProviderInitDefaultTheme | src/core/services/theming/theming.js:55-61 | provider setup never throws and leaves exactly one theme, `default`, with blue, green and red palettes and the default hues |
| Themes.CheckValidPalette | src/core/services/theming/theming.js:370-380 | the check passes iff the theme has the colour and its palette name is registered, or lacks the colour and a palette named `undefined` exists |
| Themes.FirstUnreadableRef | src/core/services/theming/theming.js:316-319 | replacing the simple variables throws iff one of them names a colour that is unset or whose palette is not registered; the throw is one of those two errors |
| Themes.RulesFor | src/core/services/theming/theming.js:302-331 | rule generation for one colour succeeds iff the colour is set and names a registered palette, `new RegExp` accepts the theme-name pattern, every simple variable can be read, and every hue value of the colour is a key of its sanitised palette; it then emits one rule per hue. A rejected pattern throws right after the palette check; an unready colour fails the palette check, the pattern or `color.name`; otherwise a failure is a simple-variable read or a missing hue |
| Themes.GenerateForTheme | src/core/services/theming/theming.js:296-301 | a theme generates iff each of the three colours generates with its bucket's simple variables; the count is the sum of their hue counts; otherwise the primary failure wins over warn, and warn over accent |
| Themes.DefaultHuesCount | src/core/services/theming/theming.js:38-43 | `DEFAULT_HUES` has four entries |
| Themes.DefaultColorGenerates | src/core/services/theming/theming.js:322-325 | a colour with the default hues on a palette carrying every hue key can read every hue it uses |
| Themes.DefaultHuedThemeGenerates | src/core/services/theming/theming.js:296-331 | a theme whose name pattern `new RegExp` accepts, and whose three colours use the default hues on palettes carrying every hue key, generates twelve rules, whatever simple variables the rules use |
| Themes.DefaultThemeGenerates | src/core/services/theming/theming.js:296-331 | with blue, green and red palettes that carry every hue key, and an engine that accepts `.md-default-theme`, the default theme generates twelve rules |
| Themes.RejectedThemeNameThrows | src/core/services/theming/theming.js:303-311 | a theme whose name pattern `new RegExp` rejects throws that error as soon as its primary palette check passes, whatever its palettes hold |
| Themes.MissingHueThrows | src/core/services/theming/theming.js:322-325 | a registered `blue` palette without `A100` makes the default theme's generation throw |
| CssRules.Split | src/core/services/theming/theming.js:268 | the split yields at least one piece; the three `SplitPieces*`/round-trip lemmas below characterise the pieces completely |
| CssRules.SplitJoinRoundTrip | src/core/services/theming/theming.js:268 | joining the pieces with `}` gives back the template |
| CssRules.SplitPiecesHaveNoBoundary | src/core/services/theming/theming.js:268 | inside a piece every `}` is followed by one of `}'";`, and the last piece does not end with `}` |
| CssRules.SplitPiecesStartAfterBoundary | src/core/services/theming/theming.js:268 | every piece after the first is the last piece or non-empty, and does not start with one of `}'";`, so each `}` between pieces ends a rule |
| CssRules.SplitHeadPrefix | src/core/services/theming/theming.js:268 | the first piece is a prefix of the template |
| CssRules.ToRules | src/core/services/theming/theming.js:269-270 | the rules are the non-empty pieces, in order, each trimmed and closed with `}`; so every rule is non-empty and ends with `}` |
| CssRules.RulesOf | src/core/services/theming/theming.js:268-270 | the rule list of a template is its split pieces turned into rules; `CssRules.ToRules` and the split lemmas state what that is |
| CssRules.Classify | src/core/services/theming/theming.js:277-285 | the three buckets together are as long as the rule list; their contents are stated by `ClassifyIsFilters` and `ClassifyPartitions` |
| CssRules.ClassifyIsFilters | src/core/services/theming/theming.js:277-285 | warn holds the rules containing `md-warn`; accent holds the other rules containing `md-accent`; primary holds the rest; each bucket keeps the original order |
| CssRules.ClassifyPartitions | src/core/services/theming/theming.js:277-285 | the three buckets are a partition of the rules as a multiset |
| CssRules.WarnWinsOverAccent | src/core/services/theming/theming.js:278-281 | a rule containing both `md-warn` and `md-accent` goes to warn only |
| CssRules.BucketTexts | src/core/services/theming/theming.js:288-290 | each bucket's text is its filter of the rule list joined; the three texts together hold exactly the characters of all rules joined, as a multiset, and so are exactly as long |
| CssRules.ClassifyKeepsText | src/core/services/theming/theming.js:277-290 | the characters of the three joined buckets together, as a multiset, are exactly the characters of all rules joined; `CssRules.ClassifyPartitions` states that each rule lands in one bucket |
| CssRules.ClassifyAddsRule | src/core/services/theming/theming.js:277-285 | classifying one more rule adds exactly that rule's characters to the buckets |
| CssRules.ClassifyKeepsLength | src/core/services/theming/theming.js:277-290 | the three joined buckets together are exactly as long as all rules joined |
| CamelCase.Upper | src/core/services/theming/theming.js:385 | lower-case ASCII letters are shifted to upper case, and other characters are unchanged |
| CamelCase.Camel | src/core/services/theming/theming.js:384-386 | the replacement never makes a string longer; the lemmas below and the loop `CamelScan` state what it produces |
| CamelCase.DashToCamelCase | src/core/services/theming/theming.js:383-387 | a missing string gives `""`; otherwise the result is no longer than the input |
| CamelCase.CamelShrinks | src/core/services/theming/theming.js:384 | the length is kept iff no `-` is followed by a character other than a line terminator |
| CamelCase.NoDashUnchanged | src/core/services/theming/theming.js:384 | a string without `-` is unchanged |
| CamelCase.TrailingDashKept | src/core/services/theming/theming.js:384 | a trailing `-` stays at the end |
| CamelCase.CamelAppend | src/core/services/theming/theming.js:384 | when the first part does not end in `-`, replacing a concatenation replaces each part |
| CamelCase.DashLetter | src/core/services/theming/theming.js:384-386 | `-x` with a lower-case letter becomes the upper-case letter |
| CamelCase.HueClassName | src/core/services/theming/theming.js:384-386 | `md-hue-1` becomes `mdHue1` |
| CamelCase.DoubleDash | src/core/services/theming/theming.js:384 | `a--b` becomes `a-b`, because the second dash is the captured character |
| CamelCase.CamelScan | src/core/services/theming/theming.js:384-386 | a left-to-right scan that emits one character per step computes the same replacement |
| Gesture.KindOf | src/core/services/gesture/gesture.js:75 | the kind is the first character of the event type, or empty for an empty type |
| Gesture.TypesMatch | src/core/services/gesture/gesture.js:131-133 | an event belongs to a session iff there is one and the event type starts with its kind; used by the `Gesture*` contracts below |
| Gesture.Suppressed | src/core/services/gesture/gesture.js:68 | the debounce as written: a start is dropped iff a finished session of the same kind ended less than 400 ms before |
| Gesture.TapsAt | src/core/services/gesture/gesture.js:112-113 | an end fires `tap` iff the element listens for tap and the end lies less than 5 px from the start on both axes |
| Gesture.Update | src/core/services/gesture/gesture.js:143-147 | the new position is recorded, and the distances become start minus position; nothing else changes |
| Gesture.GestureStart | src/core/services/gesture/gesture.js:60-90 | it runs only for the start events, the only ones its handler is bound to; a session exists afterwards iff one already did or the start is not suppressed; an active session makes the start a no-op; a new session has the event's kind, starts and stands at the event position with zero distances, and fires `dragstart` iff the element has drag |
| Gesture.GestureMove | src/core/services/gesture/gesture.js:92-104 | a move without a session of the same kind changes nothing; a matching move updates only the position and distances, fires `drag` iff the element has drag, and calls `preventDefault` iff it also has kind `t` or `p` |
| Gesture.GestureEnd | src/core/services/gesture/gesture.js:106-127 | an end without a session of the same kind changes nothing; a matching end stamps `endTime`, moves the session to last, clears the slot, and fires `tap` then `dragend` under their conditions |
| Gesture.DocumentEvent | src/core/services/gesture/gesture.js:13-14 | an event that is neither a move nor an end event changes nothing; element records are never changed |
| Gesture.Listen | src/core/services/gesture/gesture.js:27-43 | the behaviour is added to the element's existing object; on first use a new object holding only that behaviour is created; the handle captures that object |
| Gesture.Cleanup | src/core/services/gesture/gesture.js:154-166 | the element's record is removed; the call throws iff the record existed and no session is active; a session on the element is cleared; any other session stays |
| Gesture.StopListening | src/core/services/gesture/gesture.js:44-50 | the behaviour is removed from the captured object; if the object becomes empty the element's record is removed, and otherwise nothing else changes |
| Gesture.CleanupKeepsValid | src/core/services/gesture/gesture.js:154-166 | cleanup keeps every element record pointing at an existing behaviour object |
| Gesture.StopListeningKeepsValid | src/core/services/gesture/gesture.js:44-50 | `stopListening` keeps every element record pointing at an existing behaviour object |
| Gesture.EndEventsEndTheirKind | src/core/services/gesture/gesture.js:106-107 | every end event ends a session of its own kind |
| Gesture.LeaveAndCancelEndSessions | src/core/services/gesture/gesture.js:131-133 | `mouseleave` ends a mouse session and `pointercancel` ends a pointer session; a touch session ignores both |
| Gesture.FirstStartAccepted | src/core/services/gesture/gesture.js:68 | with no finished session, a start is never suppressed |
| Gesture.DebounceSuppressesSameKind | src/core/services/gesture/gesture.js:66-70 | after a touch tap ends at time 0, a mouse start at time 0 is accepted, a touch start at 100 is suppressed, and one at 400 is accepted |
| Gesture.Moves | src/core/services/gesture/gesture.js:92-104 | a run of moves never changes element records or the last session |
| Gesture.ForeignMovesIgnored | src/core/services/gesture/gesture.js:93 | moves of another kind than the session's change nothing |
| Gesture.DragOnEveryMove | src/core/services/gesture/gesture.js:97-103 | with drag, matching moves fire one `drag` per move, each carrying that move's position and consistent distances, and the session keeps its start |
| Gesture.TapIgnoresThePath | src/core/services/gesture/gesture.js:112-115 | a mouse session that moves 100 px away and ends 1 px from its start still fires `tap` |
| Gesture.ListenThenStop | src/core/services/gesture/gesture.js:27-50 | a first `listen` followed by its `stopListening` restores the element records; the cleanup throws iff no session is active, and clears a session on that element |
| Gesture.ListenIdempotent | src/core/services/gesture/gesture.js:29-30 | listening twice for the same behaviour changes nothing the second time |
| Gesture.StaleHandleCleansNewRecord | src/core/services/gesture/gesture.js:44-48 | a handle from before a cleanup empties its own old object and so removes the element's new record, even though that record still holds drag |

## Behaviour as written

The model follows the code where it disagrees with its comments or with the intent. Each point below is stated by a lemma.

- **Debounce condition.** `gesture.js:66-68` suppresses a start of the same kind, within 400 ms of the last end. The comment there, and the test in `gesture.spec.js:135-161`, describe suppressing a different kind. `Gesture.DebounceSuppressesSameKind` shows both effects: the mouse start that the test expects to be dropped is accepted, and a same-kind start is dropped.
- **Inheritance copies everything.** `angular.extend(theme, parentTheme)` copies the parent's `name` and its three setter closures as well as its colours. So an inherited theme reports the parent's name. Its setters also write to the parent. See `Themes.InheritedThemeCopiesParent` and `Themes.InheritedSetterWritesParent`.
- **Unreachable hue-value check.** The setter overlays `DEFAULT_HUES` last, so once every name passes the name check, every value is a default value. The value check can therefore never fail for names that are not `Object.prototype` members (`Themes.SetColorNeverRejectsHueValue`; see the `Object.prototype` line under Left out).
- **Swipe never fires.** `updatePointerState` divides by `pointer.time` and tests `pointer.distance`, and neither field is ever assigned. The swipe condition is therefore always false. `GestureEnd` emits no swipe.
- **Cleanup throws without a session.** `cleanupGestureData` reads `pointer.element` unguarded, so it throws whenever the element still has a record and no session is active. This happens after it has removed the record. It affects `$destroy` and every `stopListening` that empties a behaviour object while the element still has a record. `Gesture.Cleanup` reports it as `threw`.
- **A stale handle cleans the current record.** `stopListening` deletes from the behaviour object it captured, but cleans up whatever record the element has now (`Gesture.StaleHandleCleansNewRecord`).
- **Missing colour in the palette check.** `checkValidPalette` looks up `PALETTES[undefined]` when a theme has no such colour. It only passes if a palette is literally named `undefined`. Generation then fails on `color.name` (`Themes.CheckValidPalette`, `Themes.RulesFor`).
- **Registered is not enough.** A registered palette that lacks a hue the theme uses passes `checkValidPalette`, and generation then throws on `palette[hueValue].value` (`Themes.MissingHueThrows`).

## Left out

- `readPaletteCss` (DOM, `getComputedStyle`, `JSON.parse`): the loaded palettes are the `cssPalettes` parameter of `Themes.ProviderInit`.
- Style injection and the directives: the `mdTheme`/`mdThemable` directives, `$interpolate`, `$observe`, `$rootScope.$watch`, `setDefaultTheme` and `alwaysWatchTheme` are framework and DOM glue.
- Placeholder substitution in `generateSelectorsFor`: it relies on JavaScript regular expressions. `Themes.RulesFor` keeps the reads that can throw and the count of one rule per hue, not the text it produces.
- Themes.RulesFor: whether `new RegExp('.md-' + theme.name + '-theme')` compiles is the `accepts` parameter. JavaScript's regular-expression syntax is not modelled, so which names, such as `c++` or `a(`, throw there is left to that parameter.
- Themes.RulesFor: the colour types named by simple variables such as `{{accent-A100}}` are a parameter (`SimpleRefs`), not found by matching the rule text. The hue such a variable names is not checked, since a missing one reads as `undefined` without throwing.
- Swipe, velocity and direction: floating-point division over fields that are never assigned, and a global `Util` that this model assumes exists. Only the distance part of `updatePointerState` is modelled.
- Event plumbing: jqLite `on`/`off`/`triggerHandler` and `getEventPos`. Events arrive as a type and integer page coordinates. Handler registration is the presence of an element's record.
- Gesture.GestureEnd: handlers run synchronously inside `triggerHandler` and are assumed not to call `stopListening` or trigger `$destroy`. A `tap` or `dragend` handler that does clears the session in mid-call, and `gestureEnd` then throws on `pointer.behaviors` without moving the session to `lastPointer`.
- Gesture.GestureStart: the same assumption holds for `dragstart` handlers, which could otherwise leave no session behind. It also holds for `drag` handlers run by `Gesture.GestureMove`.
- Gesture.GestureStart: the two `$mdUtil.now()` readings, for the debounce and for `startTime`, are one `now` parameter.
- Handler payloads: a handler receives the session object itself, which is later mutated. The model records a snapshot taken when the handler fires.
- Object.prototype members (`toString` and the like): they make lookups such as `THEMES[name]` or `DEFAULT_HUES[name]` truthy for inherited names. Registries and hue maps are modelled as plain dictionaries. So a caller hue named `toString`, `valueOf` or `constructor` passes the hue-name check and keeps its own value, and the hue-value check can then throw; `Themes.SetColorNeverRejectsHueValue` does not cover that case.
- Themes.RegisterTheme: `inheritFrom` given as a theme object, rather than a name, is not modelled.
- Palettes.SanitizeAll: palettes are values. In the source `definePalette` stores the caller's object and `sanitizePalette` rewrites it in place, so one object defined under two names is sanitised twice and its hues are wrapped twice. Object identity of palettes is not modelled.
- Palettes.DefinePalette: the same aliasing applies; the stored palette is a copy here.
- Error message text: errors are data, and the `%1`/`%2` string replacement is not modelled.
- CamelCase.Upper: upper-cases ASCII letters only. The Unicode case mapping of `toUpperCase`, including expansions such as `ß` to `SS`, is not modelled.
- Themes.SetColor: caller hues are given as a sequence of entries in enumeration order. JavaScript's ordering of integer-like keys is not modelled.
- `gesture.spec.js`: it tests an `attach` API with bubbling that `gesture.js` does not define. It is used only for the debounce point above.

=== FILE: base.dfy ===
/** Failure-carrying values shared by the theming and gesture models. */
module Base {

  /** A value that may be absent (`undefined` or `null` in the program). */
  datatype Option<+T> = None | Some(value: T)

  /** The outcome of an operation that can throw: `Ok` carries the return value, `Err` the error. */
  datatype Result<+T, +E> = Ok(value: T) | Err(error: E)
}

=== FILE: camelcase.dfy ===
/**
 * `dashToCamelCase`: every match of `/-(.)/g` is replaced by its captured character
 * in upper case. Matches do not overlap and `.` does not match a line terminator.
 */
module CamelCase {
  import opened Base

  /** The characters JavaScript's `.` refuses to match. */
  predicate IsLineTerminator(c: char) {
    c == '\n' || c == '\r' || c == '\U{2028}' || c == '\U{2029}'
  }

  /** `toUpperCase` of one character, on the ASCII letters. */
  function Upper(c: char): (u: char)
    ensures 'a' <= c <= 'z' ==> 'A' <= u <= 'Z' && u as int == c as int - 32
    ensures !('a' <= c <= 'z') ==> u == c
  {
    if 'a' <= c <= 'z' then (c as int - 32) as char else c
  }

  /** `-` followed at position `i` by a character that `.` matches. */
  predicate MatchAt(s: string, i: int)
    requires 0 <= i < |s|
  {
    s[i] == '-' && i + 1 < |s| && !IsLineTerminator(s[i + 1])
  }

  /** The replacement, scanning left to right as a global regex does. */
  function Camel(s: string): (r: string)
    ensures |r| <= |s|
    decreases |s|
  {
    if |s| == 0 then ""
    else if MatchAt(s, 0) then [Upper(s[1])] + Camel(s[2..])
    else [s[0]] + Camel(s[1..])
  }

  /** `(s || '')` maps a missing string to the empty one before replacing. */
  function DashToCamelCase(s: Option<string>): (r: string)
    ensures s.None? ==> r == ""
    ensures s.Some? ==> |r| <= |s.value|
  {
    if s.None? then "" else Camel(s.value)
  }

  /** Exactly the strings without a match keep their length. */
  lemma {:induction false} CamelShrinks(s: string)
    ensures |Camel(s)| == |s| <==> forall i :: 0 <= i < |s| ==> !MatchAt(s, i)
    decreases |s|
  {
    if |s| > 0 {
      if MatchAt(s, 0) {
        CamelShrinks(s[2..]);
      } else {
        var tail := s[1..];
        CamelShrinks(tail);
        if forall i :: 0 <= i < |tail| ==> !MatchAt(tail, i) {
          forall i | 0 <= i < |s|
            ensures !MatchAt(s, i)
          {
            if i > 0 {
              assert MatchAt(s, i) == MatchAt(tail, i - 1);
            }
          }
        } else {
          var j :| 0 <= j < |tail| && MatchAt(tail, j);
          assert MatchAt(s, j + 1);
        }
      }
    }
  }

  /** A string with no `-` comes back unchanged. */
  lemma {:induction false} NoDashUnchanged(s: string)
    requires forall i :: 0 <= i < |s| ==> s[i] != '-'
    ensures Camel(s) == s
    decreases |s|
  {
    if |s| > 0 {
      NoDashUnchanged(s[1..]);
    }
  }

  /** A trailing `-` stays in place: either it is unmatched or it is the upper-cased capture. */
  lemma {:induction false} TrailingDashKept(s: string)
    requires |s| > 0 && s[|s| - 1] == '-'
    ensures |Camel(s)| > 0 && Camel(s)[|Camel(s)| - 1] == '-'
    decreases |s|
  {
    if |s| > 1 {
      if MatchAt(s, 0) {
        if |s| > 2 {
          TrailingDashKept(s[2..]);
        }
      } else {
        TrailingDashKept(s[1..]);
      }
    }
  }

  /** Replacement works piecewise when the first piece cannot leave a `-` waiting for its capture. */
  lemma {:induction false} CamelAppend(a: string, b: string)
    requires |a| == 0 || a[|a| - 1] != '-'
    ensures Camel(a + b) == Camel(a) + Camel(b)
    decreases |a|
  {
    if |a| > 0 {
      var ab := a + b;
      if MatchAt(a, 0) {
        assert MatchAt(ab, 0) && ab[1] == a[1];
        assert ab[2..] == a[2..] + b;
        CamelAppend(a[2..], b);
        assert Camel(ab) == [Upper(a[1])] + Camel(a[2..] + b);
      } else {
        assert |a| == 1 ==> a[0] != '-';
        assert !MatchAt(ab, 0);
        assert ab[1..] == a[1..] + b;
        CamelAppend(a[1..], b);
        assert Camel(ab) == [a[0]] + Camel(a[1..] + b);
      }
    } else {
      assert a + b == b;
    }
  }

  /** Each `-x` pair with a lower-case letter becomes the upper-case letter. */
  lemma DashLetter(c: char)
    requires 'a' <= c <= 'z'
    ensures Camel(['-', c]) == [Upper(c)]
  {
    assert MatchAt(['-', c], 0);
  }

  /** The class-name suffix of a hue becomes its camel-case key. */
  lemma HueClassName()
    ensures Camel("md-hue-1") == "mdHue1"
  {
    var one := "-1";
    assert MatchAt(one, 0) && one[2..] == "";
    assert Camel(one) == "1";
    NoDashUnchanged("ue");
    CamelAppend("ue", one);
    assert "ue" + one == "ue-1";
    var hue := "-hue-1";
    assert MatchAt(hue, 0) && hue[2..] == "ue-1" && Upper(hue[1]) == 'H';
    assert Camel(hue) == "Hue1";
    NoDashUnchanged("md");
    CamelAppend("md", hue);
    var s := "md" + hue;
    assert s == "md-hue-1";
    assert Camel(s) == "md" + "Hue1" == "mdHue1";
  }

  /** A doubled dash captures the second one, so one dash survives. */
  lemma DoubleDash()
    ensures DashToCamelCase(Some("a--b")) == "a-b"
  {
    assert !MatchAt("a--b", 0) && MatchAt("--b", 0);
    assert "a--b"[1..] == "--b" && "--b"[2..] == "b";
  }

  /** One step of the scan from position `i`. */
  lemma CamelStep(s: string, i: int)
    requires 0 <= i < |s|
    ensures MatchAt(s, i) ==> Camel(s[i..]) == [Upper(s[i + 1])] + Camel(s[i + 2..])
    ensures !MatchAt(s, i) ==> Camel(s[i..]) == [s[i]] + Camel(s[i + 1..])
  {
    var tail := s[i..];
    assert MatchAt(s, i) == MatchAt(tail, 0);
    if MatchAt(s, i) {
      assert tail[2..] == s[i + 2..];
    } else {
      assert tail[1..] == s[i + 1..];
    }
  }

  /** The scan as a loop that emits one character per step. */
  method CamelScan(s: string) returns (r: string)
    ensures r == Camel(s)
  {
    r := "";
    var i := 0;
    while i < |s|
      invariant 0 <= i <= |s|
      invariant r + Camel(s[i..]) == Camel(s)
    {
      CamelStep(s, i);
      if s[i] == '-' && i + 1 < |s| && !IsLineTerminator(s[i + 1]) {
        r := r + [Upper(s[i + 1])];
        i := i + 2;
      } else {
        r := r + [s[i]];
        i := i + 1;
      }
    }
    assert s[i..] == "";
  }
}

=== FILE: cssrules.dfy ===
/**
 * Preparation of the themable CSS template before colours are substituted: the
 * template is cut into rules at every `}` that is not followed by `}`, `'`, `"` or
 * `;`, empty pieces are dropped, each piece is trimmed and closed with `}`, and the
 * rules are sorted into warn, accent and primary buckets by the class they mention.
 */
module CssRules {
  import opened Strings

  /** The characters after which a `}` does not end a rule. */
  predicate KeepsRuleOpen(c: char) {
    c == '}' || c == '\'' || c == '"' || c == ';'
  }

  /** Position `i` of `css` is a `}` that the pattern `\}(?!(\}|'|"|;))` matches. */
  predicate SplitsAt(css: string, i: int)
    requires 0 <= i < |css|
  {
    css[i] == '}' && (i + 1 == |css| || !KeepsRuleOpen(css[i + 1]))
  }

  /** `css.split(/\}(?!(\}|'|"|;))/)` without the `undefined` entries of the never-matching group. */
  function Split(css: string): (r: seq<string>)
    ensures |r| >= 1
    decreases |css|
  {
    if |css| == 0 then [""]
    else
      var rest := Split(css[1..]);
      if SplitsAt(css, 0) then [""] + rest
      else [[css[0]] + rest[0]] + rest[1..]
  }

  /** Splitting loses nothing: joining the pieces with `}` gives back the template. */
  lemma {:induction false} SplitJoinRoundTrip(css: string)
    ensures Join(Split(css), "}") == css
    decreases |css|
  {
    if |css| > 0 {
      var rest := Split(css[1..]);
      SplitJoinRoundTrip(css[1..]);
      if SplitsAt(css, 0) {
        JoinCons("", rest, "}");
        assert css == "}" + css[1..];
      } else {
        JoinCons([css[0]] + rest[0], rest[1..], "}");
        JoinCons(rest[0], rest[1..], "}");
        assert rest == [rest[0]] + rest[1..];
        assert css == [css[0]] + css[1..];
      }
    }
  }

  lemma JoinCons(head: string, tail: seq<string>, sep: string)
    ensures Join([head] + tail, sep) == if |tail| == 0 then head else head + sep + Join(tail, sep)
  {
    assert ([head] + tail)[1..] == tail;
  }

  /**
   * No piece holds a `}` that ends a rule: inside a piece every `}` is followed by one
   * of `}'";`, and the last piece does not end with `}`.
   */
  lemma {:induction false} SplitPiecesHaveNoBoundary(css: string)
    ensures forall k, j :: 0 <= k < |Split(css)| && 0 <= j < |Split(css)[k]| - 1 && Split(css)[k][j] == '}' ==>
      KeepsRuleOpen(Split(css)[k][j + 1])
    ensures var last := Split(css)[|Split(css)| - 1]; |last| == 0 || last[|last| - 1] != '}'
    decreases |css|
  {
    if |css| > 0 {
      var rest := Split(css[1..]);
      SplitPiecesHaveNoBoundary(css[1..]);
      var r := Split(css);
      if !SplitsAt(css, 0) {
        assert r == [[css[0]] + rest[0]] + rest[1..];
        forall k, j | 0 <= k < |r| && 0 <= j < |r[k]| - 1 && r[k][j] == '}'
          ensures KeepsRuleOpen(r[k][j + 1])
        {
          if k == 0 {
            if j > 0 {
              assert r[0][j] == rest[0][j - 1] && r[0][j + 1] == rest[0][j];
            } else {
              // css[0] == '}' but it does not split: a character follows and keeps it open
              assert |rest[0]| > 0;
              assert css[1] == rest[0][0] by { SplitHeadPrefix(css[1..]); }
            }
          } else {
            assert r[k] == rest[k];
          }
        }
        if |rest| == 1 && |rest[0]| == 0 {
          assert r[|r| - 1] == [css[0]];
          assert |css| == 1 by { SplitHeadPrefix(css[1..]); SplitJoinRoundTrip(css[1..]); }
        }
      }
    }
  }

  /**
   * Every piece after the first follows a `}` that ends a rule: it is either the last
   * piece or non-empty, and it does not start with one of `}'";`. With the round trip
   * and the previous lemma this pins the split down: each `}` between two pieces ends a
   * rule, and no `}` inside a piece does.
   */
  lemma {:induction false} SplitPiecesStartAfterBoundary(css: string)
    ensures forall k :: 1 <= k < |Split(css)| ==>
      (|Split(css)[k]| == 0 ==> k == |Split(css)| - 1) &&
      (|Split(css)[k]| > 0 ==> !KeepsRuleOpen(Split(css)[k][0]))
    decreases |css|
  {
    if |css| > 0 {
      var rest := Split(css[1..]);
      SplitPiecesStartAfterBoundary(css[1..]);
      var r := Split(css);
      if SplitsAt(css, 0) {
        assert r == [""] + rest;
        if |css| > 1 {
          SplitHeadPrefix(css[1..]);
          assert |rest[0]| > 0 && rest[0][0] == css[1];
        }
        forall k | 1 <= k < |r|
          ensures r[k] == rest[k - 1]
        {
        }
      } else {
        assert r == [[css[0]] + rest[0]] + rest[1..];
        forall k | 1 <= k < |r|
          ensures r[k] == rest[k]
        {
        }
      }
    }
  }

  /** The first piece is a prefix of the template. */
  lemma {:induction false} SplitHeadPrefix(css: string)
    ensures |Split(css)[0]| <= |css| && Split(css)[0] == css[..|Split(css)[0]|]
    decreases |css|
  {
    if |css| > 0 {
      SplitHeadPrefix(css[1..]);
    }
  }

  /** `rule && rule.length`: the pieces the rule list keeps. */
  predicate NonEmpty(piece: string) { |piece| > 0 }

  /** The rule list: the non-empty pieces, in order, each trimmed and closed with `}`. */
  function ToRules(pieces: seq<string>): (r: seq<string>)
    ensures |r| == |Filter(pieces, NonEmpty)| <= |pieces|
    ensures forall i :: 0 <= i < |r| ==> r[i] == Trim(Filter(pieces, NonEmpty)[i]) + "}"
    ensures forall i :: 0 <= i < |r| ==> |r[i]| > 0 && r[i][|r[i]| - 1] == '}'
  {
    if |pieces| == 0 then []
    else if |pieces[0]| == 0 then ToRules(pieces[1..])
    else [Trim(pieces[0]) + "}"] + ToRules(pieces[1..])
  }

  /** The rules `generateThemes` works with. */
  function RulesOf(css: string): seq<string> {
    ToRules(Split(css))
  }

  // ---- classification ----

  predicate IsWarnRule(rule: string) { Contains(rule, "md-warn") }
  predicate IsAccentRule(rule: string) { !Contains(rule, "md-warn") && Contains(rule, "md-accent") }
  predicate IsPrimaryRule(rule: string) { !Contains(rule, "md-warn") && !Contains(rule, "md-accent") }

  datatype Buckets = Buckets(warn: seq<string>, accent: seq<string>, primary: seq<string>)

  /** `rules.forEach(...)`: each rule is pushed onto the bucket of the first class it mentions. */
  function Classify(rules: seq<string>): (r: Buckets)
    ensures |r.warn| + |r.accent| + |r.primary| == |rules|
  {
    if |rules| == 0 then Buckets([], [], [])
    else
      var before := Classify(rules[..|rules| - 1]);
      var rule := rules[|rules| - 1];
      if Contains(rule, "md-warn") then before.(warn := before.warn + [rule])
      else if Contains(rule, "md-accent") then before.(accent := before.accent + [rule])
      else before.(primary := before.primary + [rule])
  }

  /** The rules satisfying `p`, in their original order. */
  function Filter(rules: seq<string>, p: string -> bool): (r: seq<string>)
    ensures |r| <= |rules|
    ensures forall x :: x in r ==> x in rules && p(x)
  {
    if |rules| == 0 then []
    else if p(rules[0]) then [rules[0]] + Filter(rules[1..], p)
    else Filter(rules[1..], p)
  }

  lemma {:induction false} FilterSnoc(rules: seq<string>, x: string, p: string -> bool)
    ensures Filter(rules + [x], p) == Filter(rules, p) + (if p(x) then [x] else [])
  {
    if |rules| == 0 {
      assert rules + [x] == [x];
    } else {
      assert (rules + [x])[1..] == rules[1..] + [x];
      FilterSnoc(rules[1..], x, p);
    }
  }

  /**
   * Classification is three order-preserving filters: warn takes every rule mentioning
   * `md-warn`, accent every other rule mentioning `md-accent`, primary the rest.
   */
  lemma {:induction false} ClassifyIsFilters(rules: seq<string>)
    ensures Classify(rules).warn == Filter(rules, IsWarnRule)
    ensures Classify(rules).accent == Filter(rules, IsAccentRule)
    ensures Classify(rules).primary == Filter(rules, IsPrimaryRule)
  {
    if |rules| > 0 {
      var init := rules[..|rules| - 1];
      var rule := rules[|rules| - 1];
      assert rules == init + [rule];
      ClassifyIsFilters(init);
      FilterSnoc(init, rule, IsWarnRule);
      FilterSnoc(init, rule, IsAccentRule);
      FilterSnoc(init, rule, IsPrimaryRule);
    }
  }

  /** The buckets together hold exactly the rules: a partition, as a multiset. */
  lemma {:induction false} ClassifyPartitions(rules: seq<string>)
    ensures multiset(Classify(rules).warn) + multiset(Classify(rules).accent) + multiset(Classify(rules).primary)
      == multiset(rules)
  {
    if |rules| > 0 {
      var init := rules[..|rules| - 1];
      var rule := rules[|rules| - 1];
      assert rules == init + [rule];
      ClassifyPartitions(init);
      var before := Classify(init);
      var after := Classify(rules);
      if IsWarnRule(rule) {
        assert after.warn == before.warn + [rule] && after.accent == before.accent && after.primary == before.primary;
      } else if IsAccentRule(rule) {
        assert after.warn == before.warn && after.accent == before.accent + [rule] && after.primary == before.primary;
      } else {
        assert after.warn == before.warn && after.accent == before.accent && after.primary == before.primary + [rule];
      }
    }
  }

  /** A rule mentioning both classes goes to warn only. */
  lemma WarnWinsOverAccent(rules: seq<string>, i: int)
    requires 0 <= i < |rules| && Contains(rules[i], "md-warn") && Contains(rules[i], "md-accent")
    ensures rules[i] in Classify(rules).warn
    ensures rules[i] !in Classify(rules).accent && rules[i] !in Classify(rules).primary
  {
    ClassifyIsFilters(rules);
    FilterIncludes(rules, i, IsWarnRule);
  }

  lemma {:induction false} FilterIncludes(rules: seq<string>, i: int, p: string -> bool)
    requires 0 <= i < |rules| && p(rules[i])
    ensures rules[i] in Filter(rules, p)
  {
    if i > 0 {
      FilterIncludes(rules[1..], i - 1, p);
    }
  }

  /**
   * `warnRules.join('')` and its siblings: each bucket as one string, which is its
   * filter of the rule list joined; together the three texts hold exactly the
   * characters of all the rules joined.
   */
  function BucketTexts(css: string): (r: (string, string, string))
    ensures r.0 == Concat(Filter(RulesOf(css), IsWarnRule))
    ensures r.1 == Concat(Filter(RulesOf(css), IsAccentRule))
    ensures r.2 == Concat(Filter(RulesOf(css), IsPrimaryRule))
    ensures multiset(r.0) + multiset(r.1) + multiset(r.2) == multiset(Concat(RulesOf(css)))
    ensures |r.0| + |r.1| + |r.2| == |Concat(RulesOf(css))|
  {
    var b := Classify(RulesOf(css));
    ClassifyIsFilters(RulesOf(css));
    ClassifyKeepsText(RulesOf(css));
    ClassifyKeepsLength(RulesOf(css));
    (Concat(b.warn), Concat(b.accent), Concat(b.primary))
  }

  /** The characters of the three bucket texts together. */
  ghost function BucketChars(b: Buckets): multiset<char> {
    multiset(Concat(b.warn)) + multiset(Concat(b.accent)) + multiset(Concat(b.primary))
  }

  /** Joining the buckets separately loses and repeats no character of the joined rules. */
  lemma {:induction false} ClassifyKeepsText(rules: seq<string>)
    ensures multiset(Concat(Classify(rules).warn)) + multiset(Concat(Classify(rules).accent)) +
      multiset(Concat(Classify(rules).primary)) == multiset(Concat(rules))
  {
    if |rules| > 0 {
      var init := rules[..|rules| - 1];
      var rule := rules[|rules| - 1];
      assert rules == init + [rule];
      ClassifyKeepsText(init);
      ConcatSnoc(init, rule);
      ClassifyAddsRule(init, rule);
    }
  }

  /** Classifying one more rule adds exactly that rule's characters to the buckets. */
  lemma ClassifyAddsRule(init: seq<string>, rule: string)
    ensures BucketChars(Classify(init + [rule])) == BucketChars(Classify(init)) + multiset(rule)
  {
    var rules := init + [rule];
    assert rules[..|rules| - 1] == init && rules[|rules| - 1] == rule;
    var before := Classify(init);
    if Contains(rule, "md-warn") {
      ConcatSnoc(before.warn, rule);
    } else if Contains(rule, "md-accent") {
      ConcatSnoc(before.accent, rule);
    } else {
      ConcatSnoc(before.primary, rule);
    }
  }

  /** So the three bucket texts together are exactly as long as all rules joined. */
  lemma ClassifyKeepsLength(rules: seq<string>)
    ensures |Concat(Classify(rules).warn)| + |Concat(Classify(rules).accent)| + |Concat(Classify(rules).primary)|
      == |Concat(rules)|
  {
    ClassifyKeepsText(rules);
    var b := Classify(rules);
    assert |multiset(Concat(b.warn)) + multiset(Concat(b.accent)) + multiset(Concat(b.primary))|
      == |multiset(Concat(rules))|;
  }
}

=== FILE: gesture.dfy ===
/**
 * The `$mdGesture` pointer-session machine. One slot holds the active pointer session
 * and another the last finished one; elements carry a gesture record whose behaviour
 * object (tap, drag, swipe) is shared with the session that starts on them and with
 * every `stopListening` handle returned for them.
 *
 * Behaviour objects have identity: `sets[i]` is object `i`, and creating one appends.
 * Event plumbing is reduced to its inputs: an event type, the page coordinates
 * `getEventPos` finds, and the clock reading `now`.
 */
module Gesture {
  import opened Base

  type Element = nat

  datatype Behavior = Tap | Drag | Swipe

  const StartEvents: set<string> := {"mousedown", "touchstart", "pointerdown"}
  const MoveEvents: set<string> := {"mousemove", "touchmove", "pointermove"}
  const EndEvents: set<string> :=
    {"mouseup", "mouseleave", "touchend", "touchcancel", "pointerup", "pointercancel"}

  datatype Event = Event(eventType: string, pageX: int, pageY: int)

  /** `ev.type.charAt(0)`: the input kind, `m`, `t` or `p` for the events listened to. */
  function KindOf(eventType: string): (k: string)
    ensures |k| == if |eventType| == 0 then 0 else 1
    ensures |k| == 1 ==> k[0] == eventType[0]
  {
    if |eventType| == 0 then "" else eventType[..1]
  }

  /**
   * A pointer session. `behaviors` is the identity of the element's behaviour object;
   * `endTime` is stamped when the session ends.
   */
  datatype Pointer = Pointer(
    kind: string,
    startX: int, startY: int, startTime: int,
    element: Element,
    behaviors: nat,
    x: int, y: int,
    distanceX: int, distanceY: int,
    endTime: Option<int>)

  datatype State = State(
    pointer: Option<Pointer>,
    lastPointer: Option<Pointer>,
    data: map<Element, nat>,
    sets: seq<set<Behavior>>)

  /** Before any gesture: no sessions and no element listening. */
  const Initial: State := State(None, None, map[], [])

  /** Every element's gesture record points at an existing behaviour object. */
  predicate Valid(s: State) {
    forall e :: e in s.data ==> s.data[e] < |s.sets|
  }

  /** `behaviors[b]` is truthy for behaviour object `obj`. */
  predicate Has(s: State, obj: nat, b: Behavior) {
    obj < |s.sets| && b in s.sets[obj]
  }

  /** The distances agree with the start and the current position. */
  predicate Measured(p: Pointer) {
    p.distanceX == p.startX - p.x && p.distanceY == p.startY - p.y
  }

  function Abs(n: int): nat { if n < 0 then -n else n }

  datatype Emitted = Emitted(name: string, element: Element, pointer: Pointer)

  /** The outcome of one event: the new state, the handlers triggered, and whether `preventDefault` was called. */
  datatype Step = Step(state: State, emitted: seq<Emitted>, preventDefault: bool)

  function Ignore(s: State): Step { Step(s, [], false) }

  /** `typesMatch(ev, p)`: there is a session and the event's first letter is its kind. */
  predicate TypesMatch(eventType: string, p: Option<Pointer>) {
    p.Some? && KindOf(eventType) == p.value.kind
  }

  /** The distance part of `updatePointerState`: record the position and measure from the start. */
  function Update(p: Pointer, ev: Event): (r: Pointer)
    ensures Measured(r) && r.x == ev.pageX && r.y == ev.pageY
    ensures r.(x := p.x, y := p.y, distanceX := p.distanceX, distanceY := p.distanceY) == p
  {
    p.(x := ev.pageX, y := ev.pageY, distanceX := p.startX - ev.pageX, distanceY := p.startY - ev.pageY)
  }

  /** The debounce rule as written: a start of the SAME kind within 400 ms of the last end. */
  predicate Suppressed(last: Option<Pointer>, eventType: string, now: int) {
    TypesMatch(eventType, last) && last.value.endTime.Some? && now - last.value.endTime.value < 400
  }

  /**
   * `gestureStart`, run by the start handler an element carries while it has a gesture
   * record; that handler is bound to the start events only.
   */
  function GestureStart(s: State, ev: Event, element: Element, now: int): (r: Step)
    requires element in s.data && ev.eventType in StartEvents
    ensures r.state.pointer.Some? <==> s.pointer.Some? || !Suppressed(s.lastPointer, ev.eventType, now)
    ensures r.state.lastPointer == s.lastPointer && r.state.data == s.data && r.state.sets == s.sets
    ensures !r.preventDefault
    ensures s.pointer.Some? ==> r == Ignore(s)
    ensures s.pointer.None? && r.state.pointer.Some? ==>
      var p := r.state.pointer.value;
      p.kind == KindOf(ev.eventType) && p.element == element && p.behaviors == s.data[element] &&
      p.startX == p.x == ev.pageX && p.startY == p.y == ev.pageY && p.startTime == now &&
      p.distanceX == 0 && p.distanceY == 0 && p.endTime.None? &&
      r.emitted == (if Has(s, s.data[element], Drag) then [Emitted("$mdGesture.dragstart", element, p)] else [])
    ensures r.state.pointer.None? ==> r == Ignore(s)
  {
    if s.pointer.Some? then Ignore(s)
    else if Suppressed(s.lastPointer, ev.eventType, now) then Ignore(s)
    else
      var created := Pointer(KindOf(ev.eventType), ev.pageX, ev.pageY, now, element, s.data[element],
                             ev.pageX, ev.pageY, 0, 0, None);
      var p := Update(created, ev);
      var emitted := if Has(s, p.behaviors, Drag) then [Emitted("$mdGesture.dragstart", element, p)] else [];
      Step(s.(pointer := Some(p)), emitted, false)
  }

  /** `gestureMove`, bound on the document to the move events. */
  function GestureMove(s: State, ev: Event): (r: Step)
    ensures !TypesMatch(ev.eventType, s.pointer) ==> r == Ignore(s)
    ensures r.state.lastPointer == s.lastPointer && r.state.data == s.data && r.state.sets == s.sets
    ensures TypesMatch(ev.eventType, s.pointer) ==>
      var prior := s.pointer.value;
      var drag := Has(s, prior.behaviors, Drag);
      r.state.pointer.Some? && Measured(r.state.pointer.value) &&
      r.state.pointer.value.(x := prior.x, y := prior.y, distanceX := prior.distanceX, distanceY := prior.distanceY) == prior &&
      r.state.pointer.value.x == ev.pageX && r.state.pointer.value.y == ev.pageY &&
      r.emitted == (if drag then [Emitted("$mdGesture.drag", prior.element, r.state.pointer.value)] else []) &&
      (r.preventDefault <==> drag && (prior.kind == "t" || prior.kind == "p"))
  {
    if !TypesMatch(ev.eventType, s.pointer) then Ignore(s)
    else
      var p := Update(s.pointer.value, ev);
      var drag := Has(s, p.behaviors, Drag);
      Step(s.(pointer := Some(p)),
           if drag then [Emitted("$mdGesture.drag", p.element, p)] else [],
           drag && (p.kind == "t" || p.kind == "p"))
  }

  /** Whether an end at `ev` fires `tap`: measured between the start and the end position only. */
  predicate TapsAt(s: State, p: Pointer, ev: Event) {
    Has(s, p.behaviors, Tap) && Abs(p.startX - ev.pageX) < 5 && Abs(p.startY - ev.pageY) < 5
  }

  /** `gestureEnd`, bound on the document to the end events. No swipe is ever fired (see README). */
  function GestureEnd(s: State, ev: Event, now: int): (r: Step)
    ensures !TypesMatch(ev.eventType, s.pointer) ==> r == Ignore(s)
    ensures r.state.data == s.data && r.state.sets == s.sets && !r.preventDefault
    ensures TypesMatch(ev.eventType, s.pointer) ==>
      var prior := s.pointer.value;
      r.state.pointer.None? && r.state.lastPointer.Some? &&
      var last := r.state.lastPointer.value;
      Measured(last) && last.x == ev.pageX && last.y == ev.pageY && last.endTime == Some(now) &&
      last.(x := prior.x, y := prior.y, distanceX := prior.distanceX, distanceY := prior.distanceY, endTime := prior.endTime) == prior &&
      r.emitted ==
        (if TapsAt(s, prior, ev) then [Emitted("$mdGesture.tap", prior.element, last)] else []) +
        (if Has(s, prior.behaviors, Drag) then [Emitted("$mdGesture.dragend", prior.element, last)] else [])
  {
    if !TypesMatch(ev.eventType, s.pointer) then Ignore(s)
    else
      var p := Update(s.pointer.value, ev).(endTime := Some(now));
      var tap := Has(s, p.behaviors, Tap) && Abs(p.distanceX) < 5 && Abs(p.distanceY) < 5;
      var emitted :=
        (if tap then [Emitted("$mdGesture.tap", p.element, p)] else []) +
        (if Has(s, p.behaviors, Drag) then [Emitted("$mdGesture.dragend", p.element, p)] else []);
      Step(s.(pointer := None, lastPointer := Some(p)), emitted, false)
  }

  /** The document-level handlers: move events go to `gestureMove`, end events to `gestureEnd`. */
  function DocumentEvent(s: State, ev: Event, now: int): (r: Step)
    ensures ev.eventType !in MoveEvents && ev.eventType !in EndEvents ==> r == Ignore(s)
    ensures r.state.data == s.data && r.state.sets == s.sets
  {
    if ev.eventType in MoveEvents then GestureMove(s, ev)
    else if ev.eventType in EndEvents then GestureEnd(s, ev, now)
    else Ignore(s)
  }

  // ---- listen / stopListening / cleanup ----

  /** The `stopListening` closure: the element, the behaviour object it captured, the behaviour. */
  datatype Listener = Listener(element: Element, obj: nat, behavior: Behavior)

  datatype Listening = Listening(state: State, handle: Listener)

  /** The outcome of a cleanup: the state and whether the call threw after its side effects. */
  datatype Outcome = Outcome(state: State, threw: bool)

  /** `listen`: add the behaviour to the element's object, creating the record (and handlers) the first time. */
  function Listen(s: State, element: Element, b: Behavior): (r: Listening)
    requires Valid(s)
    ensures Valid(r.state)
    ensures r.state.pointer == s.pointer && r.state.lastPointer == s.lastPointer
    ensures r.state.data.Keys == s.data.Keys + {element}
    ensures forall e :: e in s.data && e != element ==> r.state.data[e] == s.data[e]
    ensures r.handle == Listener(element, r.state.data[element], b)
    ensures element in s.data ==>
      r.state.data == s.data && |r.state.sets| == |s.sets| &&
      r.state.sets[s.data[element]] == s.sets[s.data[element]] + {b} &&
      forall i :: 0 <= i < |s.sets| && i != s.data[element] ==> r.state.sets[i] == s.sets[i]
    ensures element !in s.data ==>
      r.state.sets == s.sets + [{b}] && r.state.data[element] == |s.sets|
  {
    if element in s.data then
      var obj := s.data[element];
      Listening(s.(sets := s.sets[obj := s.sets[obj] + {b}]), Listener(element, obj, b))
    else
      var obj := |s.sets|;
      Listening(s.(data := s.data[element := obj], sets := s.sets + [{b}]), Listener(element, obj, b))
  }

  /**
   * `cleanupGestureData` (also the `$destroy` handler): drop the element's record, then
   * compare the active session's element, which throws when there is no session.
   */
  function Cleanup(s: State, element: Element): (r: Outcome)
    ensures r.state.data == s.data - {element} && r.state.sets == s.sets && r.state.lastPointer == s.lastPointer
    ensures r.threw <==> element in s.data && s.pointer.None?
    ensures r.state.pointer.None? <==> s.pointer.None? || (element in s.data && s.pointer.value.element == element)
    ensures r.state.pointer.Some? ==> r.state.pointer == s.pointer
  {
    if element !in s.data then Outcome(s, false)
    else
      var removed := s.(data := s.data - {element});
      if s.pointer.None? then Outcome(removed, true)
      else if s.pointer.value.element == element then Outcome(removed.(pointer := None), false)
      else Outcome(removed, false)
  }

  /** `stopListening`: delete the behaviour from the captured object; clean up when it becomes empty. */
  function StopListening(s: State, h: Listener): (r: Outcome)
    requires h.obj < |s.sets|
    ensures |r.state.sets| == |s.sets| && r.state.sets[h.obj] == s.sets[h.obj] - {h.behavior}
    ensures forall i :: 0 <= i < |s.sets| && i != h.obj ==> r.state.sets[i] == s.sets[i]
    ensures s.sets[h.obj] - {h.behavior} != {} ==>
      !r.threw && r.state.data == s.data && r.state.pointer == s.pointer
    ensures s.sets[h.obj] - {h.behavior} == {} ==> r.state.data == s.data - {h.element}
    ensures r.state.lastPointer == s.lastPointer
  {
    var remaining := s.sets[h.obj] - {h.behavior};
    var deleted := s.(sets := s.sets[h.obj := remaining]);
    if remaining == {} then Cleanup(deleted, h.element) else Outcome(deleted, false)
  }

  lemma CleanupKeepsValid(s: State, element: Element)
    requires Valid(s)
    ensures Valid(Cleanup(s, element).state)
  {
  }

  lemma StopListeningKeepsValid(s: State, h: Listener)
    requires Valid(s) && h.obj < |s.sets|
    ensures Valid(StopListening(s, h).state)
  {
  }

  // ---- properties of the machine ----

  /** Only the first letter is compared, so every end event ends a session of its own kind. */
  lemma EndEventsEndTheirKind(s: State, ev: Event, now: int)
    requires ev.eventType in EndEvents && s.pointer.Some? && s.pointer.value.kind == KindOf(ev.eventType)
    ensures GestureEnd(s, ev, now).state.pointer.None?
    ensures GestureEnd(s, ev, now).state.lastPointer.Some?
  {
  }

  /** `mouseleave` ends a mouse session and `pointercancel` a pointer session; a touch session ignores both. */
  lemma LeaveAndCancelEndSessions(s: State, x: int, y: int, now: int)
    requires s.pointer.Some?
    ensures s.pointer.value.kind == "m" ==> GestureEnd(s, Event("mouseleave", x, y), now).state.pointer.None?
    ensures s.pointer.value.kind == "p" ==> GestureEnd(s, Event("pointercancel", x, y), now).state.pointer.None?
    ensures s.pointer.value.kind == "t" ==>
      GestureEnd(s, Event("mouseleave", x, y), now) == Ignore(s) &&
      GestureEnd(s, Event("pointercancel", x, y), now) == Ignore(s)
  {
    assert KindOf("mouseleave") == "m" && KindOf("pointercancel") == "p";
  }

  /** With no finished session there is nothing to debounce against. */
  lemma FirstStartAccepted(s: State, ev: Event, element: Element, now: int)
    requires element in s.data && ev.eventType in StartEvents && s.pointer.None? && s.lastPointer.None?
    ensures GestureStart(s, ev, element, now).state.pointer.Some?
  {
  }

  /**
   * The debounce rule as written, on a touch tap at time 0: a mouse start at the same
   * instant is accepted (the comment and the test expect it to be suppressed), while a
   * touch start 100 ms later is suppressed and one 400 ms later is accepted again.
   */
  lemma DebounceSuppressesSameKind()
    ensures
      var listening := Listen(Initial, 1, Tap).state;
      var touched := GestureStart(listening, Event("touchstart", 0, 0), 1, 0).state;
      var ended := GestureEnd(touched, Event("touchend", 0, 0), 0);
      |ended.emitted| == 1 && ended.emitted[0].name == "$mdGesture.tap" &&
      GestureStart(ended.state, Event("mousedown", 0, 0), 1, 0).state.pointer.Some? &&
      GestureStart(ended.state, Event("touchstart", 0, 0), 1, 100).state.pointer.None? &&
      GestureStart(ended.state, Event("touchstart", 0, 0), 1, 400).state.pointer.Some?
  {
    var listening := Listen(Initial, 1, Tap).state;
    assert listening.data == map[1 := 0] && listening.sets == [{Tap}];
    assert KindOf("touchstart") == "t" && KindOf("touchend") == "t" && KindOf("mousedown") == "m";
    var touched := GestureStart(listening, Event("touchstart", 0, 0), 1, 0).state;
    assert touched.pointer.Some? && touched.pointer.value.kind == "t";
    var ended := GestureEnd(touched, Event("touchend", 0, 0), 0);
    assert TapsAt(touched, touched.pointer.value, Event("touchend", 0, 0));
    assert ended.state.lastPointer.value.kind == "t" && ended.state.lastPointer.value.endTime == Some(0);
  }

  /** A run of move events, each handled in turn. */
  function Moves(s: State, evs: seq<Event>): (r: Step)
    ensures r.state.data == s.data && r.state.sets == s.sets && r.state.lastPointer == s.lastPointer
    decreases |evs|
  {
    if |evs| == 0 then Ignore(s)
    else
      var first := GestureMove(s, evs[0]);
      var rest := Moves(first.state, evs[1..]);
      Step(rest.state, first.emitted + rest.emitted, first.preventDefault || rest.preventDefault)
  }

  /** Moves of another kind than the session's, or with no session, change nothing. */
  lemma {:induction false} ForeignMovesIgnored(s: State, evs: seq<Event>)
    requires forall i :: 0 <= i < |evs| ==> !TypesMatch(evs[i].eventType, s.pointer)
    ensures Moves(s, evs) == Ignore(s)
    decreases |evs|
  {
    if |evs| > 0 {
      ForeignMovesIgnored(s, evs[1..]);
    }
  }

  /**
   * With the drag behaviour, a run of matching moves fires one `drag` per move, each
   * carrying that move's position, and the session keeps its start.
   */
  lemma {:induction false} DragOnEveryMove(s: State, evs: seq<Event>)
    requires s.pointer.Some? && Has(s, s.pointer.value.behaviors, Drag)
    requires forall i :: 0 <= i < |evs| ==> KindOf(evs[i].eventType) == s.pointer.value.kind
    ensures var r := Moves(s, evs);
      r.state.pointer.Some? &&
      r.state.pointer.value.(x := 0, y := 0, distanceX := 0, distanceY := 0) ==
        s.pointer.value.(x := 0, y := 0, distanceX := 0, distanceY := 0) &&
      |r.emitted| == |evs| &&
      (forall i :: 0 <= i < |evs| ==>
        r.emitted[i].name == "$mdGesture.drag" && r.emitted[i].element == s.pointer.value.element &&
        r.emitted[i].pointer.x == evs[i].pageX && r.emitted[i].pointer.y == evs[i].pageY &&
        Measured(r.emitted[i].pointer)) &&
      (|evs| > 0 ==> r.state.pointer.value.x == evs[|evs| - 1].pageX && Measured(r.state.pointer.value))
    decreases |evs|
  {
    if |evs| > 0 {
      var first := GestureMove(s, evs[0]);
      DragOnEveryMove(first.state, evs[1..]);
      var rest := Moves(first.state, evs[1..]);
      assert Moves(s, evs).emitted == first.emitted + rest.emitted;
      forall i | 1 <= i < |evs|
        ensures Moves(s, evs).emitted[i] == rest.emitted[i - 1] && evs[i] == evs[1..][i - 1]
      {
      }
    }
  }

  /** Tap compares only the start and the end position: a drag away and back still taps. */
  lemma TapIgnoresThePath()
    ensures
      var listening := Listen(Initial, 7, Tap).state;
      var started := GestureStart(listening, Event("mousedown", 0, 0), 7, 0).state;
      var moved := GestureMove(started, Event("mousemove", 100, 100)).state;
      var ended := GestureEnd(moved, Event("mouseup", 1, 1), 50);
      ended.emitted == [Emitted("$mdGesture.tap", 7, ended.state.lastPointer.value)]
  {
    var listening := Listen(Initial, 7, Tap).state;
    assert listening.sets == [{Tap}];
    assert KindOf("mousedown") == "m" && KindOf("mousemove") == "m" && KindOf("mouseup") == "m";
    var started := GestureStart(listening, Event("mousedown", 0, 0), 7, 0).state;
    var moved := GestureMove(started, Event("mousemove", 100, 100)).state;
    assert TapsAt(moved, moved.pointer.value, Event("mouseup", 1, 1));
  }

  /**
   * The first `listen` on an element followed by its `stopListening` removes the record
   * again; the cleanup throws when no session is active and ends a session on that element.
   */
  lemma ListenThenStop(s: State, element: Element, b: Behavior)
    requires Valid(s) && element !in s.data
    ensures var l := Listen(s, element, b);
      var r := StopListening(l.state, l.handle);
      r.state.data == s.data && r.state.lastPointer == s.lastPointer &&
      (r.threw <==> s.pointer.None?) &&
      r.state.pointer == (if s.pointer.Some? && s.pointer.value.element == element then None else s.pointer)
  {
    var l := Listen(s, element, b);
    assert l.state.sets[l.handle.obj] == {b};
    assert l.state.data - {element} == s.data;
  }

  /** Listening twice for the same behaviour changes nothing the second time. */
  lemma ListenIdempotent(s: State, element: Element, b: Behavior)
    requires Valid(s)
    ensures var once := Listen(s, element, b);
      Listen(once.state, element, b) == once
  {
    var once := Listen(s, element, b);
    var obj := once.state.data[element];
    assert b in once.state.sets[obj];
    assert once.state.sets[obj] + {b} == once.state.sets[obj];
    assert once.state.sets[obj := once.state.sets[obj] + {b}] == once.state.sets;
  }

  /**
   * A handle keeps the behaviour object it captured, but cleans up whatever record the
   * element has now: after a cleanup and a fresh `listen` for drag, the old tap handle
   * empties its own stale object and so removes the new record, which still holds drag.
   */
  lemma StaleHandleCleansNewRecord()
    ensures
      var first := Listen(Initial, 3, Tap);
      var cleaned := Cleanup(first.state, 3).state;
      var again := Listen(cleaned, 3, Drag);
      var stale := StopListening(again.state, first.handle);
      3 in again.state.data && Drag in again.state.sets[again.state.data[3]] &&
      3 !in stale.state.data && stale.threw
  {
    var first := Listen(Initial, 3, Tap);
    assert first.state.sets == [{Tap}] && first.handle.obj == 0;
    var cleaned := Cleanup(first.state, 3).state;
    assert cleaned.data == map[];
    var again := Listen(cleaned, 3, Drag);
    assert again.state.sets == [{Tap}, {Drag}];
  }
}

=== FILE: palettes.dfy ===
/**
 * Colour palettes of the theming provider: the hue keys every palette must carry,
 * validation, definition and extension of palettes, and the contrast sanitisation
 * applied to every palette before CSS generation.
 *
 * A palette is a JavaScript object; here it is a map from key to value, where a
 * value is either a string (a colour, or `contrastDefaultColor`) or a list of hue
 * names (`contrastLightColors`, `contrastDarkColors`).
 */
module Palettes {
  import opened Base
  import opened Strings

  datatype PaletteValue = Text(s: string) | Names(items: seq<string>)

  type Palette = map<string, PaletteValue>

  /** The errors the theming provider throws. */
  datatype ThemingError =
    | MissingColors(palette: string, missing: seq<string>)
    | InvalidHueName(hue: string, theme: string, field: string, paletteName: string)
    | InvalidHueValue(hueValue: string, theme: string, field: string, paletteName: string)
    | InvalidPalette(field: string, available: set<string>)
    | UndefinedColor(field: string)
    | UnreadablePalette(paletteName: string)
    | MissingHue(field: string, paletteName: string)
    | InvalidThemeRegExp(themeName: string)

  /** The fourteen hue keys, in the order validation reports them. */
  const HueKeys: seq<string> :=
    ["50", "100", "200", "300", "400", "500", "600", "700", "800", "900", "A100", "A200", "A400", "A700"]

  /** JavaScript truthiness of `p[k]`: absent keys and empty strings are falsy, lists never are. */
  predicate Truthy(p: Palette, k: string) {
    k in p && (p[k].Names? || p[k].s != "")
  }

  /** Every hue key maps to a truthy value. */
  predicate HasAllHues(p: Palette) {
    forall k :: k in HueKeys ==> Truthy(p, k)
  }

  /** The keys of `keys`, in order, that `p` does not map to a truthy value. */
  function MissingFrom(p: Palette, keys: seq<string>): (r: seq<string>)
    ensures |r| <= |keys|
    ensures forall k :: k in r <==> k in keys && !Truthy(p, k)
  {
    if |keys| == 0 then []
    else if Truthy(p, keys[0]) then MissingFrom(p, keys[1..])
    else [keys[0]] + MissingFrom(p, keys[1..])
  }

  lemma {:induction false} MissingFromEmptyPalette(keys: seq<string>)
    ensures MissingFrom(map[], keys) == keys
  {
    if |keys| > 0 {
      MissingFromEmptyPalette(keys[1..]);
    }
  }

  /** `checkPaletteValid(name, map)`: the map itself, or an error naming exactly the missing hues. */
  function CheckPaletteValid(name: string, p: Palette): (r: Result<Palette, ThemingError>)
    ensures r.Ok? <==> HasAllHues(p)
    ensures r.Ok? ==> r.value == p
    ensures r.Err? ==> r.error.MissingColors? && r.error.palette == name
    ensures r.Err? ==> |r.error.missing| > 0
    ensures r.Err? ==> forall k :: k in r.error.missing <==> k in HueKeys && !Truthy(p, k)
  {
    var missing := MissingFrom(p, HueKeys);
    if |missing| > 0 then
      assert missing[0] in HueKeys && !Truthy(p, missing[0]);
      Err(MissingColors(name, missing))
    else
      assert forall k :: k in HueKeys ==> k !in missing;
      Ok(p)
  }

  /**
   * `definePalette(name, map)`: the palette registry with `map` stored under `name`;
   * an absent map stands for `{}`. Nothing is stored when validation throws.
   */
  function DefinePalette(palettes: map<string, Palette>, name: string, m: Option<Palette>)
    : (r: Result<map<string, Palette>, ThemingError>)
    ensures r.Ok? <==> m.Some? && HasAllHues(m.value)
    ensures r.Ok? ==> r.value.Keys == palettes.Keys + {name} && r.value[name] == m.value
    ensures r.Ok? ==> forall n :: n in palettes && n != name ==> r.value[n] == palettes[n]
    ensures m.None? ==> r == Err(MissingColors(name, HueKeys))
  {
    var given := if m.Some? then m.value else map[];
    var checked := CheckPaletteValid(name, given);
    if checked.Ok? then
      Ok(palettes[name := checked.value])
    else
      assert m.None? ==> checked == Err(MissingColors(name, HueKeys)) by {
        EmptyPaletteFails(name);
      }
      Err(checked.error)
  }

  /** `{}` lacks every hue, so validation names all fourteen. */
  lemma EmptyPaletteFails(name: string)
    ensures CheckPaletteValid(name, map[]) == Err(MissingColors(name, HueKeys))
  {
    MissingFromEmptyPalette(HueKeys);
  }

  /** The palette stored under `name`, or `{}` when there is none (`PALETTES[name] || {}`). */
  function StoredOrEmpty(palettes: map<string, Palette>, name: string): Palette {
    if name in palettes then palettes[name] else map[]
  }

  /**
   * `extendPalette(name, map)`: a new palette copied from the stored one with the
   * entries of `map` written over it, then validated. The registry is not changed
   * (this function does not return one).
   */
  function ExtendPalette(palettes: map<string, Palette>, name: string, m: Option<Palette>)
    : (r: Result<Palette, ThemingError>)
    ensures
      var base := StoredOrEmpty(palettes, name);
      var overlay := if m.Some? then m.value else map[];
      && (r.Ok? ==> r.value.Keys == base.Keys + overlay.Keys)
      && (r.Ok? ==> forall k :: k in overlay ==> r.value[k] == overlay[k])
      && (r.Ok? ==> forall k :: k in base && k !in overlay ==> r.value[k] == base[k])
      && (r.Ok? <==> forall h :: h in HueKeys ==>
            (h in overlay && Truthy(overlay, h)) || (h !in overlay && Truthy(base, h)))
  {
    var overlay := if m.Some? then m.value else map[];
    CheckPaletteValid(name, StoredOrEmpty(palettes, name) + overlay)
  }

  /** Extending a valid stored palette with truthy values always succeeds. */
  lemma ExtendValidWithTruthyValues(palettes: map<string, Palette>, name: string, m: Palette)
    requires name in palettes && HasAllHues(palettes[name])
    requires forall k :: k in m ==> Truthy(m, k)
    ensures ExtendPalette(palettes, name, Some(m)).Ok?
  {
  }

  /** Extending an unknown palette validates the given map alone. */
  lemma ExtendUnknownPalette(palettes: map<string, Palette>, name: string, m: Palette)
    requires name !in palettes
    ensures ExtendPalette(palettes, name, Some(m)) == CheckPaletteValid(name, m)
  {
    assert map[] + m == m;
  }

  // ---- contrast sanitisation ----

  const DarkContrast := "rgba(0,0,0,0.87)"
  const LightContrast := "white"

  /** The three keys sanitisation removes. */
  const ContrastKeys: set<string> := {"contrastDefaultColor", "contrastLightColors", "contrastDarkColors"}

  /** A hue after sanitisation: its original value and the text colour readable on it. */
  datatype Hue = Hue(value: PaletteValue, contrast: string)

  /** `palette.contrastDefaultColor === 'light'` */
  predicate LightByDefault(p: Palette) {
    "contrastDefaultColor" in p && p["contrastDefaultColor"] == Text("light")
  }

  /**
   * `(palette[listKey] || []).indexOf(hue) > -1`: membership for a list; for a
   * non-empty string value, JavaScript's `indexOf` is a substring search.
   */
  predicate Lists(p: Palette, listKey: string, hue: string) {
    listKey in p &&
    match p[listKey]
    case Names(items) => hue in items
    case Text(s) => s != "" && Contains(s, hue)
  }

  /** The text colour for `hue`: the default unless the opposite list names the hue. */
  function ContrastOf(p: Palette, hue: string): (r: string)
    ensures r == DarkContrast || r == LightContrast
    ensures r == DarkContrast <==>
      (LightByDefault(p) && Lists(p, "contrastDarkColors", hue)) ||
      (!LightByDefault(p) && !Lists(p, "contrastLightColors", hue))
  {
    if LightByDefault(p) then
      if Lists(p, "contrastDarkColors", hue) then DarkContrast else LightContrast
    else
      if Lists(p, "contrastLightColors", hue) then LightContrast else DarkContrast
  }

  /** `sanitizePalette(palette)`: drop the contrast keys and pair every other value with a contrast colour. */
  function SanitizePalette(p: Palette): (r: map<string, Hue>)
    ensures r.Keys == p.Keys - ContrastKeys
    ensures forall h :: h in r ==> r[h].value == p[h]
    ensures forall h :: h in r ==> r[h].contrast == DarkContrast || r[h].contrast == LightContrast
    ensures forall h :: h in r ==>
      (r[h].contrast == DarkContrast <==>
        (LightByDefault(p) && Lists(p, "contrastDarkColors", h)) ||
        (!LightByDefault(p) && !Lists(p, "contrastLightColors", h)))
  {
    map h | h in p.Keys - ContrastKeys :: Hue(p[h], ContrastOf(p, h))
  }

  /** `angular.forEach(PALETTES, sanitizePalette)` */
  function SanitizeAll(palettes: map<string, Palette>): (r: map<string, map<string, Hue>>)
    ensures r.Keys == palettes.Keys
    ensures forall n :: n in r ==> r[n] == SanitizePalette(palettes[n])
  {
    map n | n in palettes :: SanitizePalette(palettes[n])
  }

  /** A palette that carries every hue key keeps each of them through sanitisation. */
  lemma HueKeyKept(p: Palette, k: string)
    requires HasAllHues(p) && k in HueKeys
    ensures k in SanitizePalette(p)
  {
    assert Truthy(p, k);
    assert forall i :: 0 <= i < |HueKeys| ==> |HueKeys[i]| <= 4;
  }

  /** A palette with no contrast information gets the dark text colour on every hue. */
  lemma SanitizeWithoutContrastKeys(p: Palette, h: string)
    requires p.Keys !! ContrastKeys && h in p
    ensures SanitizePalette(p)[h] == Hue(p[h], DarkContrast)
  {
  }

  /** A list value that is a string is searched as a substring, so `'500'` lists hue `'50'`. */
  lemma StringListMatchesSubstring()
    ensures Lists(map["contrastLightColors" := Text("500")], "contrastLightColors", "50")
  {
    assert HasPrefix("500", "50");
  }
}

=== FILE: strings.dfy ===
/** The few JavaScript string operations the theming code relies on. */
module Strings {

  predicate HasPrefix(s: string, prefix: string) {
    |prefix| <= |s| && s[..|prefix|] == prefix
  }

  /** `s.indexOf(sub) > -1`: `sub` occurs somewhere in `s` (the empty string occurs everywhere). */
  predicate Contains(s: string, sub: string)
    decreases |s|
  {
    HasPrefix(s, sub) || (|s| > 0 && Contains(s[1..], sub))
  }

  /** `sub` occurs in `s` starting at index `i`. */
  predicate OccursAt(s: string, sub: string, i: int) {
    0 <= i <= |s| - |sub| && s[i..i + |sub|] == sub
  }

  /** `Contains` is an occurrence of `sub` at some position of `s`. */
  lemma {:induction false} ContainsOccurs(s: string, sub: string)
    ensures Contains(s, sub) <==> exists i :: OccursAt(s, sub, i)
    decreases |s|
  {
    if HasPrefix(s, sub) {
      assert OccursAt(s, sub, 0);
    } else if |s| > 0 {
      ContainsOccurs(s[1..], sub);
      if exists i :: OccursAt(s, sub, i) {
        var i :| OccursAt(s, sub, i);
        assert i != 0;
        assert OccursAt(s[1..], sub, i - 1);
      }
      if exists j :: OccursAt(s[1..], sub, j) {
        var j :| OccursAt(s[1..], sub, j);
        assert OccursAt(s, sub, j + 1);
      }
    }
  }

  /** `parts.join('')` */
  function Concat(parts: seq<string>): string {
    if |parts| == 0 then "" else parts[0] + Concat(parts[1..])
  }

  lemma {:induction false} ConcatSnoc(parts: seq<string>, x: string)
    ensures Concat(parts + [x]) == Concat(parts) + x
  {
    if |parts| == 0 {
      assert parts + [x] == [x];
    } else {
      assert (parts + [x])[1..] == parts[1..] + [x];
      ConcatSnoc(parts[1..], x);
    }
  }

  /** `parts.join(sep)` */
  function Join(parts: seq<string>, sep: string): string {
    if |parts| == 0 then ""
    else if |parts| == 1 then parts[0]
    else parts[0] + sep + Join(parts[1..], sep)
  }

  /** `join('')` is `Join` with the empty separator. */
  lemma {:induction false} ConcatIsJoin(parts: seq<string>)
    ensures Concat(parts) == Join(parts, "")
  {
    if |parts| == 1 {
      assert Concat(parts) == parts[0] + Concat([]);
    } else if |parts| > 1 {
      ConcatIsJoin(parts[1..]);
    }
  }

  /** The characters `String.prototype.trim` removes: white space and line terminators. */
  predicate IsJsSpace(c: char) {
    || c == ' ' || c == '\t' || c == '\n' || c == '\r' || c == '\U{000B}' || c == '\U{000C}'
    || c == '\U{00A0}' || c == '\U{1680}' || ('\U{2000}' <= c <= '\U{200A}')
    || c == '\U{2028}' || c == '\U{2029}' || c == '\U{202F}' || c == '\U{205F}'
    || c == '\U{3000}' || c == '\U{FEFF}'
  }

  function TrimStart(s: string): (r: string)
    ensures |r| <= |s| && r == s[|s| - |r|..]
    ensures |r| > 0 ==> !IsJsSpace(r[0])
    ensures forall i :: 0 <= i < |s| - |r| ==> IsJsSpace(s[i])
  {
    if |s| > 0 && IsJsSpace(s[0]) then TrimStart(s[1..]) else s
  }

  function TrimEnd(s: string): (r: string)
    ensures |r| <= |s| && r == s[..|r|]
    ensures |r| > 0 ==> !IsJsSpace(r[|r| - 1])
    ensures forall i :: |r| <= i < |s| ==> IsJsSpace(s[i])
  {
    if |s| > 0 && IsJsSpace(s[|s| - 1]) then TrimEnd(s[..|s| - 1]) else s
  }

  /** `s.trim()`: the part of `s` between its leading and its trailing white space. */
  function Trim(s: string): (r: string)
    ensures |r| <= |s|
    ensures |r| > 0 ==> !IsJsSpace(r[0]) && !IsJsSpace(r[|r| - 1])
    ensures exists a :: TrimmedAt(s, r, a)
  {
    TrimWitness(s);
    TrimEnd(TrimStart(s))
  }

  lemma TrimWitness(s: string)
    ensures TrimmedAt(s, TrimEnd(TrimStart(s)), |s| - |TrimStart(s)|)
  {
    var t := TrimStart(s);
    TrailingSpace(s, t, |s| - |t|);
    TrimmedAtIntro(s, TrimEnd(t), |s| - |t|);
  }

  lemma TrimmedAtIntro(s: string, r: string, a: int)
    requires 0 <= a <= |s| - |r| && r == s[a..a + |r|]
    requires forall i :: 0 <= i < a ==> IsJsSpace(s[i])
    requires forall i :: a + |r| <= i < |s| ==> IsJsSpace(s[i])
    ensures TrimmedAt(s, r, a)
  {
  }

  /** The white space `TrimEnd` drops from a suffix of `s` is white space of `s`. */
  lemma TrailingSpace(s: string, t: string, a: int)
    requires 0 <= a <= |s| && t == s[a..]
    ensures TrimEnd(t) == s[a..a + |TrimEnd(t)|]
    ensures forall i :: a + |TrimEnd(t)| <= i < |s| ==> IsJsSpace(s[i])
  {
    var r := TrimEnd(t);
    forall i | a + |r| <= i < |s| ensures IsJsSpace(s[i]) {
      assert s[i] == t[i - a];
    }
  }

  /** `r` is `s` from index `a` on, with only white space before and after it. */
  predicate TrimmedAt(s: string, r: string, a: int) {
    && 0 <= a <= |s| - |r| && r == s[a..a + |r|]
    && (forall i :: 0 <= i < a ==> IsJsSpace(s[i]))
    && (forall i :: a + |r| <= i < |s| ==> IsJsSpace(s[i]))
  }
}

=== FILE: themes.dfy ===
/**
 * Themes of the theming provider: registration with inheritance, the colour
 * setters made by `colorMaker`, the default theme the provider registers, and the
 * palette checks made for every theme when CSS is generated.
 *
 * Every theme object is created by `registerTheme` and stored once under its name,
 * never replaced, so a theme object is identified here by its registry key. The
 * colour setters are closures over the object that created them; `owner` records
 * which object that is, because inheritance copies the setters of the parent.
 */
module Themes {
  import opened Base
  import opened Palettes

  datatype ColorType = Primary | Accent | Warn

  /** The property name of a colour type, as it appears on a theme and in messages. */
  function FieldName(t: ColorType): string {
    match t
    case Primary => "primary"
    case Accent => "accent"
    case Warn => "warn"
  }

  /** `{name, hues}`: a palette name and the hue of that palette used for each hue name. */
  datatype ThemeColor = ThemeColor(name: string, hues: map<string, string>)

  /**
   * A theme object: `name` and the three optional colours, plus `owner`, the registry
   * key of the object whose `primaryColor`/`accentColor`/`warnColor` closures this
   * object carries (the object those setters write to and return).
   */
  datatype Theme = Theme(
    name: string,
    owner: string,
    primary: Option<ThemeColor>,
    accent: Option<ThemeColor>,
    warn: Option<ThemeColor>)
  {
    function Color(t: ColorType): Option<ThemeColor> {
      match t
      case Primary => primary
      case Accent => accent
      case Warn => warn
    }

    function WithColor(t: ColorType, c: ThemeColor): (r: Theme)
      ensures r.Color(t) == Some(c)
      ensures forall u :: u != t ==> r.Color(u) == Color(u)
      ensures r.name == name && r.owner == owner
    {
      match t
      case Primary => this.(primary := Some(c))
      case Accent => this.(accent := Some(c))
      case Warn => this.(warn := Some(c))
    }
  }

  /** Every theme's colour setters belong to a registered theme object. */
  predicate WellFormed(themes: map<string, Theme>) {
    forall k {:trigger themes[k]} :: k in themes ==> themes[k].owner in themes
  }

  /** `DEFAULT_HUES` */
  const DefaultHues: map<string, string> :=
    map["default" := "500", "hue-1" := "100", "hue-2" := "300", "hue-3" := "A100"]

  /** The keys of `DEFAULT_HUES` in their enumeration order. */
  const DefaultHueNames: seq<string> := ["default", "hue-1", "hue-2", "hue-3"]

  /** `new Theme(name)`: no colours, and setters writing to the new object itself. */
  function NewTheme(key: string): Theme {
    Theme(key, key, None, None, None)
  }

  /**
   * `angular.extend(theme, parent)`: every own property of the parent is written over
   * the theme. `name` and the three setters are always own properties; a colour is one
   * only once a setter has assigned it.
   */
  function Overlay(theme: Theme, parent: Theme): (r: Theme)
    ensures r.name == parent.name && r.owner == parent.owner
    ensures forall f :: r.Color(f) == if parent.Color(f).Some? then parent.Color(f) else theme.Color(f)
  {
    Theme(parent.name, parent.owner,
      if parent.primary.Some? then parent.primary else theme.primary,
      if parent.accent.Some? then parent.accent else theme.accent,
      if parent.warn.Some? then parent.warn else theme.warn)
  }

  datatype Registered = Registered(themes: map<string, Theme>, theme: Theme)

  /** The parent name used when none, or an empty string, is given (`inheritFrom || 'default'`). */
  function ParentName(inheritFrom: Option<string>): (r: string)
    ensures r != ""
    ensures r == "default" <==> inheritFrom.None? || inheritFrom.value in {"", "default"}
    ensures inheritFrom.Some? && inheritFrom.value != "" ==> r == inheritFrom.value
  {
    if inheritFrom.None? || inheritFrom.value == "" then "default" else inheritFrom.value
  }

  /** `registerTheme(name, inheritFrom)` with `inheritFrom` absent or a theme name. */
  function RegisterTheme(themes: map<string, Theme>, name: string, inheritFrom: Option<string>)
    : (r: Registered)
    ensures r.themes.Keys == themes.Keys + {name}
    ensures name in themes ==> r == Registered(themes, themes[name])
    ensures name !in themes ==> r.themes == themes[name := r.theme]
    ensures name !in themes && ParentName(inheritFrom) !in themes ==> r.theme == NewTheme(name)
  {
    if name in themes then Registered(themes, themes[name])
    else
      var parentKey := ParentName(inheritFrom);
      var created := NewTheme(name);
      var theme := if parentKey in themes then Overlay(created, themes[parentKey]) else created;
      Registered(themes[name := theme], theme)
  }

  /** Registration keeps every theme's setters pointing at a registered theme. */
  lemma RegisterThemeKeepsWellFormed(themes: map<string, Theme>, name: string, inheritFrom: Option<string>)
    requires WellFormed(themes)
    ensures WellFormed(RegisterTheme(themes, name, inheritFrom).themes)
  {
    var r := RegisterTheme(themes, name, inheritFrom);
    forall k | k in r.themes ensures r.themes[k].owner in r.themes {
      if k != name || name in themes {
        assert r.themes[k] == themes[k];
      }
    }
  }

  /** Registration is idempotent by name: a second call returns the first theme and changes nothing. */
  lemma RegisterThemeIdempotent(themes: map<string, Theme>, name: string, p: Option<string>, q: Option<string>)
    ensures
      var first := RegisterTheme(themes, name, p);
      RegisterTheme(first.themes, name, q) == first
  {
  }

  /** Overlaying a parent onto a new theme yields the parent's fields exactly. */
  lemma OverlayOntoNew(key: string, parent: Theme)
    ensures Overlay(NewTheme(key), parent) == parent
  {
    match parent.primary { case None => case Some(_) => }
    match parent.accent { case None => case Some(_) => }
    match parent.warn { case None => case Some(_) => }
  }

  /**
   * As written, inheriting from a registered parent stores an exact copy of the parent
   * object's fields: the new theme carries the parent's name and the parent's setters.
   */
  lemma InheritedThemeCopiesParent(themes: map<string, Theme>, name: string, inheritFrom: Option<string>)
    requires name !in themes && ParentName(inheritFrom) in themes
    ensures RegisterTheme(themes, name, inheritFrom).theme == themes[ParentName(inheritFrom)]
    ensures RegisterTheme(themes, name, inheritFrom).theme.owner == themes[ParentName(inheritFrom)].owner
  {
    OverlayOntoNew(name, themes[ParentName(inheritFrom)]);
  }

  // ---- colour setters (colorMaker) ----

  /** The own keys of the caller's `hues` object, in its enumeration order. */
  function CallerKeys(hues: seq<(string, string)>): (r: seq<string>)
    ensures |r| == |hues|
    ensures forall i :: 0 <= i < |hues| ==> r[i] == hues[i].0
  {
    if |hues| == 0 then [] else [hues[0].0] + CallerKeys(hues[1..])
  }

  /** The caller's `hues` object as a map; a later entry for a key wins, as assignment would. */
  function HueMap(hues: seq<(string, string)>): (r: map<string, string>)
    ensures forall k :: k in r <==> k in CallerKeys(hues)
  {
    if |hues| == 0 then map[]
    else
      var last := hues[|hues| - 1];
      assert CallerKeys(hues) == CallerKeys(hues[..|hues| - 1]) + [last.0];
      HueMap(hues[..|hues| - 1])[last.0 := last.1]
  }

  /** The first key of `keys` outside `allowed`, if any. */
  function FirstOutside(keys: seq<string>, allowed: set<string>): (r: Option<string>)
    ensures r.None? <==> forall i :: 0 <= i < |keys| ==> keys[i] in allowed
    ensures r.Some? ==>
      exists i :: 0 <= i < |keys| && keys[i] == r.value && keys[i] !in allowed &&
        forall j :: 0 <= j < i ==> keys[j] in allowed
  {
    if |keys| == 0 then None
    else if keys[0] !in allowed then Some(keys[0])
    else
      var rest := FirstOutside(keys[1..], allowed);
      if rest.Some? then
        ghost var i :| 0 <= i < |keys[1..]| && keys[1..][i] == rest.value && keys[1..][i] !in allowed &&
          forall j :: 0 <= j < i ==> keys[1..][j] in allowed;
        assert keys[i + 1] == rest.value;
        rest
      else rest
  }

  /** The first key of `keys` whose hue in `hues` is not one of the fourteen hue keys, if any. */
  function FirstInvalidValue(keys: seq<string>, hues: map<string, string>): (r: Option<string>)
    requires forall i :: 0 <= i < |keys| ==> keys[i] in hues
    ensures r.None? <==> forall i :: 0 <= i < |keys| ==> hues[keys[i]] in HueKeys
  {
    if |keys| == 0 then None
    else if hues[keys[0]] !in HueKeys then Some(hues[keys[0]])
    else FirstInvalidValue(keys[1..], hues)
  }

  /** The theme registry after a setter call, and what the call returned or threw. */
  datatype SetterOutcome = SetterOutcome(themes: map<string, Theme>, result: Result<string, ThemingError>)

  /** Every caller key is a default hue name. */
  predicate OnlyDefaultNames(hues: seq<(string, string)>) {
    forall i :: 0 <= i < |hues| ==> hues[i].0 in DefaultHues
  }

  /** When the caller names only default hues, the defaults overwrite every value. */
  lemma DefaultsOverwriteAll(hues: seq<(string, string)>)
    requires OnlyDefaultNames(hues)
    ensures HueMap(hues) + DefaultHues == DefaultHues
  {
    var m := HueMap(hues);
    forall k | k in m ensures k in DefaultHues {
      var i :| 0 <= i < |CallerKeys(hues)| && CallerKeys(hues)[i] == k;
      assert hues[i].0 == k;
    }
  }

  /** The default hue names never fail the name check, so only the caller's keys can. */
  lemma FirstOutsideSkipsDefaults(keys: seq<string>)
    ensures FirstOutside(keys + DefaultHueNames, DefaultHues.Keys) == FirstOutside(keys, DefaultHues.Keys)
  {
    if |keys| == 0 {
      assert keys + DefaultHueNames == DefaultHueNames;
      assert forall i :: 0 <= i < |DefaultHueNames| ==> DefaultHueNames[i] in DefaultHues.Keys;
    } else {
      assert (keys + DefaultHueNames)[1..] == keys[1..] + DefaultHueNames;
      FirstOutsideSkipsDefaults(keys[1..]);
    }
  }

  /** Every key in setter enumeration order is a key of the merged hues. */
  lemma OrderWithinMerged(hues: seq<(string, string)>)
    ensures forall i :: 0 <= i < |CallerKeys(hues) + DefaultHueNames| ==>
      (CallerKeys(hues) + DefaultHueNames)[i] in HueMap(hues) + DefaultHues
  {
    var order := CallerKeys(hues) + DefaultHueNames;
    forall i | 0 <= i < |order| ensures order[i] in HueMap(hues) + DefaultHues {
      if i < |CallerKeys(hues)| {
        assert order[i] == CallerKeys(hues)[i];
      } else {
        assert order[i] == DefaultHueNames[i - |CallerKeys(hues)|];
      }
    }
  }

  /** Under the defaults every hue name maps to one of the fourteen hue keys. */
  lemma {:induction false} DefaultValuesAreHues(order: seq<string>)
    requires forall i :: 0 <= i < |order| ==> order[i] in DefaultHues
    ensures FirstInvalidValue(order, DefaultHues).None?
  {
    if |order| > 0 {
      DefaultValueIsHue(order[0]);
      DefaultValuesAreHues(order[1..]);
    }
  }


  lemma DefaultValueIsHue(k: string)
    requires k in DefaultHues
    ensures DefaultHues[k] in HueKeys
  {
    if k == "default" {
      assert HueKeys[5] == "500";
    } else if k == "hue-1" {
      assert HueKeys[1] == "100";
    } else if k == "hue-2" {
      assert HueKeys[3] == "300";
    } else {
      assert HueKeys[10] == "A100";
    }
  }

  /** The hues the setter assigns: `angular.extend({}, hues, DEFAULT_HUES)`. */
  function MergedHues(hues: seq<(string, string)>): (r: map<string, string>)
    ensures OnlyDefaultNames(hues) ==> r == DefaultHues
  {
    if OnlyDefaultNames(hues) then DefaultsOverwriteAll(hues); HueMap(hues) + DefaultHues
    else HueMap(hues) + DefaultHues
  }

  /**
   * `Object.keys` of the merged hues: the caller's keys, then the default names; a
   * name may repeat, which does not change which key a search finds first.
   */
  function MergedOrder(hues: seq<(string, string)>): (r: seq<string>)
    ensures forall i :: 0 <= i < |r| ==> r[i] in MergedHues(hues)
    ensures forall k :: k in MergedHues(hues) ==> k in r
  {
    OrderWithinMerged(hues);
    MergedWithinOrder(hues);
    CallerKeys(hues) + DefaultHueNames
  }

  lemma MergedWithinOrder(hues: seq<(string, string)>)
    ensures forall k :: k in HueMap(hues) + DefaultHues ==> k in CallerKeys(hues) + DefaultHueNames
  {
    forall k | k in HueMap(hues) + DefaultHues ensures k in CallerKeys(hues) + DefaultHueNames {
      if k !in HueMap(hues) {
        assert k in DefaultHues;
        assert DefaultHues.Keys == {DefaultHueNames[0], DefaultHueNames[1], DefaultHueNames[2], DefaultHueNames[3]};
      }
    }
  }

  /** The hue-name check: the first merged key that `DEFAULT_HUES` does not have. */
  function InvalidHueNameOf(hues: seq<(string, string)>): (r: Option<string>)
    ensures r.None? <==> OnlyDefaultNames(hues)
    ensures r.Some? ==>
      exists i :: 0 <= i < |hues| && hues[i].0 == r.value && hues[i].0 !in DefaultHues &&
        forall j :: 0 <= j < i ==> hues[j].0 in DefaultHues
  {
    FirstOutsideSkipsDefaults(CallerKeys(hues));
    FirstBadCallerName(hues);
    FirstOutside(MergedOrder(hues), DefaultHues.Keys)
  }

  /** The search over the caller's keys, restated over the caller's entries. */
  lemma FirstBadCallerName(hues: seq<(string, string)>)
    ensures var r := FirstOutside(CallerKeys(hues), DefaultHues.Keys);
      && (r.None? <==> OnlyDefaultNames(hues))
      && (r.Some? ==>
        exists i :: 0 <= i < |hues| && hues[i].0 == r.value && hues[i].0 !in DefaultHues &&
          forall j :: 0 <= j < i ==> hues[j].0 in DefaultHues)
  {
    FirstOutsideOfEntries(hues, DefaultHues.Keys);
  }

  lemma FirstOutsideOfEntries(hues: seq<(string, string)>, allowed: set<string>)
    ensures var r := FirstOutside(CallerKeys(hues), allowed);
      && (r.None? <==> forall i :: 0 <= i < |hues| ==> hues[i].0 in allowed)
      && (r.Some? ==>
        exists i :: 0 <= i < |hues| && hues[i].0 == r.value && hues[i].0 !in allowed &&
          forall j :: 0 <= j < i ==> hues[j].0 in allowed)
  {
    var keys := CallerKeys(hues);
    var r := FirstOutside(keys, allowed);
    if r.Some? {
      var i :| 0 <= i < |keys| && keys[i] == r.value && keys[i] !in allowed &&
        forall j :: 0 <= j < i ==> keys[j] in allowed;
      assert hues[i].0 == r.value;
      assert forall j :: 0 <= j < i ==> hues[j].0 == keys[j];
    } else {
      assert forall i :: 0 <= i < |hues| ==> hues[i].0 == keys[i];
    }
  }

  /** The hue-value check: the first merged hue that is not one of the fourteen hue keys. */
  function InvalidHueValueOf(hues: seq<(string, string)>): (r: Option<string>)
    ensures OnlyDefaultNames(hues) ==> r.None?
  {
    if OnlyDefaultNames(hues) then
      DefaultValuesAreHues(MergedOrder(hues));
      FirstInvalidValue(MergedOrder(hues), MergedHues(hues))
    else
      FirstInvalidValue(MergedOrder(hues), MergedHues(hues))
  }

  /**
   * The setter for colour `field` made by `colorMaker`, called on the theme registered
   * under `key` with `hues` given in enumeration order (empty when omitted). It assigns
   * `{name, hues}` to its own object (`owner`) first, then checks hue names and hue
   * values; on success it returns that object (`Ok(owner)`).
   */
  function SetColor(themes: map<string, Theme>, key: string, field: ColorType, paletteName: string,
                    hues: seq<(string, string)>): (r: SetterOutcome)
    requires key in themes && themes[key].owner in themes
    ensures r.themes.Keys == themes.Keys
  {
    var self := themes[key].owner;
    var updated := themes[self := themes[self].WithColor(field, ThemeColor(paletteName, MergedHues(hues)))];
    SetterOutcome(updated, CheckHues(self, themes[self].name, field, paletteName, hues))
  }

  /** The two checks the setter makes after assigning: hue names, then hue values. */
  function CheckHues(self: string, selfName: string, field: ColorType, paletteName: string,
                     hues: seq<(string, string)>): (r: Result<string, ThemingError>)
    ensures r.Ok? <==> OnlyDefaultNames(hues)
    ensures r.Ok? ==> r.value == self
    ensures r.Err? ==> r.error == InvalidHueName(InvalidHueNameOf(hues).value, selfName, FieldName(field), paletteName)
  {
    match InvalidHueNameOf(hues)
    case Some(badName) => Err(InvalidHueName(badName, selfName, FieldName(field), paletteName))
    case None =>
      match InvalidHueValueOf(hues)
      case Some(badValue) => Err(InvalidHueValue(badValue, selfName, FieldName(field), paletteName))
      case None => Ok(self)
  }

  /** A setter call keeps every theme's setters pointing at a registered theme. */
  lemma SetColorKeepsWellFormed(themes: map<string, Theme>, key: string, field: ColorType, paletteName: string,
                                hues: seq<(string, string)>)
    requires key in themes && WellFormed(themes)
    ensures WellFormed(SetColor(themes, key, field, paletteName, hues).themes)
  {
    var self := themes[key].owner;
    assert self in themes;
    var theme := themes[self].WithColor(field, ThemeColor(paletteName, MergedHues(hues)));
    assert SetColor(themes, key, field, paletteName, hues).themes == themes[self := theme];
    UpdateKeepsWellFormed(themes, self, theme);
  }

  /** Replacing a theme by one with the same owner keeps the registry well formed. */
  lemma UpdateKeepsWellFormed(themes: map<string, Theme>, key: string, theme: Theme)
    requires WellFormed(themes) && key in themes && theme.owner == themes[key].owner
    ensures WellFormed(themes[key := theme])
  {
    var updated := themes[key := theme];
    forall k | k in updated ensures updated[k].owner in updated {
      if k != key {
        assert updated[k] == themes[k];
      }
    }
  }

  /**
   * Whatever the outcome, the setter has already replaced colour `field` of its own
   * object with `{name: paletteName, hues: hues overlaid by DEFAULT_HUES}`, and
   * changed nothing else.
   */
  lemma SetColorAssignsFirst(themes: map<string, Theme>, key: string, field: ColorType, paletteName: string,
                             hues: seq<(string, string)>)
    requires key in themes && themes[key].owner in themes
    ensures
      var r := SetColor(themes, key, field, paletteName, hues);
      var self := themes[key].owner;
      && (forall k :: k in themes && k != self ==> r.themes[k] == themes[k])
      && r.themes[self].name == themes[self].name && r.themes[self].owner == themes[self].owner
      && (forall u :: u != field ==> r.themes[self].Color(u) == themes[self].Color(u))
      && r.themes[self].Color(field) == Some(ThemeColor(paletteName, HueMap(hues) + DefaultHues))
  {
  }

  /**
   * The setter succeeds exactly when every caller hue name is a default one; it then
   * returns its own object, whose colour `field` has exactly the default hues.
   */
  lemma SetColorSucceeds(themes: map<string, Theme>, key: string, field: ColorType, paletteName: string,
                         hues: seq<(string, string)>)
    requires key in themes && themes[key].owner in themes
    ensures
      var r := SetColor(themes, key, field, paletteName, hues);
      && (r.result.Ok? <==> OnlyDefaultNames(hues))
      && (r.result.Ok? ==> r.result.value == themes[key].owner)
      && (r.result.Ok? ==> r.themes[themes[key].owner].Color(field) == Some(ThemeColor(paletteName, DefaultHues)))
  {
  }

  /** A failing setter names the first caller hue name that is not a default one. */
  lemma SetColorRejects(themes: map<string, Theme>, key: string, field: ColorType, paletteName: string,
                        hues: seq<(string, string)>)
    requires key in themes && themes[key].owner in themes
    ensures
      var r := SetColor(themes, key, field, paletteName, hues);
      r.result.Err? ==>
        && r.result.error.InvalidHueName?
        && r.result.error.theme == themes[themes[key].owner].name
        && r.result.error.field == FieldName(field)
        && r.result.error.paletteName == paletteName
        && exists i :: 0 <= i < |hues| && hues[i].0 == r.result.error.hue && hues[i].0 !in DefaultHues &&
             forall j :: 0 <= j < i ==> hues[j].0 in DefaultHues
  {
  }

  /**
   * The hue-value check is never reached with a bad value: once every hue name is a
   * default one, the defaults have overwritten every value.
   */
  lemma SetColorNeverRejectsHueValue(themes: map<string, Theme>, key: string, field: ColorType,
                                     paletteName: string, hues: seq<(string, string)>)
    requires key in themes && themes[key].owner in themes
    ensures !SetColor(themes, key, field, paletteName, hues).result.Err? ||
            SetColor(themes, key, field, paletteName, hues).result.error.InvalidHueName?
  {
  }

  /**
   * As written, the setters of a theme registered with a parent write to the parent:
   * the new theme's own record is left as it was and the parent's colour changes.
   */
  lemma InheritedSetterWritesParent(themes: map<string, Theme>, name: string, field: ColorType, paletteName: string)
    requires name !in themes && "default" in themes && themes["default"].owner == "default"
    ensures
      var reg := RegisterTheme(themes, name, None);
      var out := SetColor(reg.themes, name, field, paletteName, []);
      && out.result == Ok("default")
      && out.themes[name] == reg.themes[name]
      && out.themes["default"].Color(field) == Some(ThemeColor(paletteName, DefaultHues))
  {
    var reg := RegisterTheme(themes, name, None);
    assert reg.themes[name].owner == "default";
    assert HueMap([]) + DefaultHues == DefaultHues;
  }

  // ---- the provider's default theme ----

  datatype ThemingState = ThemingState(palettes: map<string, Palette>, themes: map<string, Theme>)

  /**
   * `theme.primaryColor(primary).accentColor(accent).warnColor(warn)` on the theme
   * registered under `key`, each setter called on the object the previous one returned.
   * The theme must own its setters, as the provider's own `default` theme does; on an
   * inherited theme the same chain is three `SetColor` calls on the parent's setters.
   */
  function SetColors(themes: map<string, Theme>, key: string, primary: string, accent: string, warn: string)
    : (r: Result<map<string, Theme>, ThemingError>)
    requires key in themes && themes[key].owner == key
    ensures r.Ok? ==> r.value.Keys == themes.Keys
  {
    SetColorWithoutHues(themes, key, Primary, primary);
    var p := SetColor(themes, key, Primary, primary, []);
    match p.result
    case Err(e) => Err(e)
    case Ok(self1) =>
      SetColorWithoutHues(p.themes, self1, Accent, accent);
      var a := SetColor(p.themes, self1, Accent, accent, []);
      match a.result
      case Err(e) => Err(e)
      case Ok(self2) =>
        SetColorWithoutHues(a.themes, self2, Warn, warn);
        var w := SetColor(a.themes, self2, Warn, warn, []);
        match w.result
        case Err(e) => Err(e)
        case Ok(_) => Ok(w.themes)
  }

  /**
   * The provider's construction: palettes read from the CSS (an input here), then
   * `registerTheme('default').primaryColor('blue').accentColor('green').warnColor('red')`.
   */
  function ProviderInit(cssPalettes: map<string, Palette>): (r: Result<ThemingState, ThemingError>)
    ensures r.Ok? ==> r.value.palettes == cssPalettes
  {
    var reg := RegisterTheme(map[], "default", None);
    match SetColors(reg.themes, "default", "blue", "green", "red")
    case Err(e) => Err(e)
    case Ok(themes) => Ok(ThemingState(cssPalettes, themes))
  }

  /**
   * On a theme that owns its setters the chain succeeds and sets the three colours,
   * each with the default hues; nothing else changes.
   */
  lemma SetColorsSucceeds(themes: map<string, Theme>, key: string, primary: string, accent: string, warn: string)
    requires key in themes && themes[key].owner == key
    ensures SetColors(themes, key, primary, accent, warn) ==
      Ok(themes[key := Theme(themes[key].name, key,
        Some(ThemeColor(primary, DefaultHues)),
        Some(ThemeColor(accent, DefaultHues)),
        Some(ThemeColor(warn, DefaultHues)))])
  {
    var t1 := themes[key].WithColor(Primary, ThemeColor(primary, DefaultHues));
    SetColorWithoutHues(themes, key, Primary, primary);
    var p := SetColor(themes, key, Primary, primary, []);
    assert p.themes == themes[key := t1] && p.result == Ok(key);
    var t2 := t1.WithColor(Accent, ThemeColor(accent, DefaultHues));
    SetColorWithoutHues(p.themes, key, Accent, accent);
    var a := SetColor(p.themes, p.result.value, Accent, accent, []);
    assert a.themes == p.themes[key := t2] && a.result == Ok(key);
    var t3 := t2.WithColor(Warn, ThemeColor(warn, DefaultHues));
    SetColorWithoutHues(a.themes, key, Warn, warn);
    var w := SetColor(a.themes, a.result.value, Warn, warn, []);
    assert w.themes == a.themes[key := t3] && w.result == Ok(key);
    assert SetColors(themes, key, primary, accent, warn) == Ok(w.themes);
    UpdateTwice(themes, key, t1, t2);
    UpdateTwice(themes, key, t2, t3);
    assert t3 == Theme(themes[key].name, key,
      Some(ThemeColor(primary, DefaultHues)),
      Some(ThemeColor(accent, DefaultHues)),
      Some(ThemeColor(warn, DefaultHues)));
  }

  lemma UpdateTwice(themes: map<string, Theme>, key: string, first: Theme, second: Theme)
    ensures themes[key := first][key := second] == themes[key := second]
  {
  }

  /**
   * The provider's setup never throws and leaves one theme, `default`, using blue,
   * green and red with the default hues.
   */
  lemma ProviderInitDefaultTheme(cssPalettes: map<string, Palette>)
    ensures ProviderInit(cssPalettes).Ok?
    ensures ProviderInit(cssPalettes).value.palettes == cssPalettes
    ensures ProviderInit(cssPalettes).value.themes.Keys == {"default"}
    ensures ProviderInit(cssPalettes).value.themes["default"] ==
      Theme("default", "default",
        Some(ThemeColor("blue", DefaultHues)),
        Some(ThemeColor("green", DefaultHues)),
        Some(ThemeColor("red", DefaultHues)))
  {
    var reg := RegisterTheme(map[], "default", None);
    assert reg.themes == map["default" := NewTheme("default")];
    SetColorsSucceeds(reg.themes, "default", "blue", "green", "red");
  }

  /** A setter called without hues on a theme that owns its setters succeeds and returns that theme. */
  lemma SetColorWithoutHues(themes: map<string, Theme>, key: string, field: ColorType, paletteName: string)
    requires key in themes && themes[key].owner == key
    ensures SetColor(themes, key, field, paletteName, []) ==
      SetterOutcome(themes[key := themes[key].WithColor(field, ThemeColor(paletteName, DefaultHues))], Ok(key))
  {
    assert OnlyDefaultNames([]);
  }


  // ---- palette checks during CSS generation ----

  /**
   * The key `checkValidPalette` looks up: the colour's palette name, or the string
   * "undefined" when the theme has no such colour (`({}).name` used as a key).
   */
  function PaletteKey(theme: Theme, field: ColorType): string {
    match theme.Color(field)
    case None => "undefined"
    case Some(c) => c.name
  }

  /** `checkValidPalette(theme, colorType)` against the names of the registered palettes. */
  function CheckValidPalette(registered: set<string>, theme: Theme, field: ColorType)
    : (r: Result<(), ThemingError>)
    ensures r.Ok? <==>
      (theme.Color(field).Some? && theme.Color(field).value.name in registered) ||
      (theme.Color(field).None? && "undefined" in registered)
    ensures r.Err? ==> r.error == InvalidPalette(FieldName(field), registered)
  {
    if PaletteKey(theme, field) in registered then Ok(())
    else Err(InvalidPalette(FieldName(field), registered))
  }

  /** A colour of the theme that CSS generation can use: set, and naming a registered palette. */
  predicate ColorReady(registered: set<string>, theme: Theme, field: ColorType) {
    theme.Color(field).Some? && theme.Color(field).value.name in registered
  }

  /**
   * The colour types named by the simple variables (`{{accent-A100}}`, `{{primary-500}}`, ...)
   * in each bucket's rule text, in text order. The rule text itself is not modelled;
   * these references are all generation reads from it.
   */
  datatype SimpleRefs = SimpleRefs(primary: seq<ColorType>, accent: seq<ColorType>, warn: seq<ColorType>)
  {
    function Of(field: ColorType): seq<ColorType> {
      match field
      case Primary => primary
      case Accent => accent
      case Warn => warn
    }
  }

  /**
   * Replacing the simple variables: each reads `PALETTES[theme[type].name]`, which throws
   * when the colour is unset or its palette is not registered. A hue missing from the
   * palette is not an error there (`|| ''`). The result is the first throw, if any.
   */
  function FirstUnreadableRef(registered: set<string>, theme: Theme, refs: seq<ColorType>)
    : (r: Option<ThemingError>)
    ensures r.None? <==> forall i :: 0 <= i < |refs| ==> ColorReady(registered, theme, refs[i])
    ensures r.Some? ==> r.value.UndefinedColor? || r.value.UnreadablePalette?
  {
    if |refs| == 0 then None
    else
      match theme.Color(refs[0])
      case None => Some(UndefinedColor(FieldName(refs[0])))
      case Some(c) =>
        if c.name !in registered then Some(UnreadablePalette(c.name))
        else FirstUnreadableRef(registered, theme, refs[1..])
  }

  /** Every hue value of the colour is a key of its sanitised palette, so `palette[hueValue].value` can be read. */
  predicate HuesPresent(palettes: map<string, map<string, Hue>>, c: ThemeColor)
    requires c.name in palettes
  {
    forall h :: h in c.hues ==> c.hues[h] in palettes[c.name]
  }

  /** The source of `themeNameRegex`, built from the theme's name. */
  function ThemeNamePattern(name: string): string {
    ".md-" + name + "-theme"
  }

  /**
   * When `generateSelectorsFor(field, ...)` runs to completion: `new RegExp` accepts the
   * theme-name pattern (`accepts` stands for the JavaScript engine's regular-expression
   * syntax), and every read it makes finds something.
   */
  predicate Generates(palettes: map<string, map<string, Hue>>, accepts: string -> bool, theme: Theme,
                      field: ColorType, refs: seq<ColorType>) {
    && ColorReady(palettes.Keys, theme, field)
    && accepts(ThemeNamePattern(theme.name))
    && (forall i :: 0 <= i < |refs| ==> ColorReady(palettes.Keys, theme, refs[i]))
    && HuesPresent(palettes, theme.Color(field).value)
  }

  /**
   * `generateSelectorsFor(field, rules)` reduced to what it checks and how many rules it
   * emits, over the sanitised palettes: the palette check; compiling `themeNameRegex`;
   * `color.name` (a missing colour that passes the check, through a palette named
   * "undefined", throws there); the simple variables `refs`; then one rule per hue name,
   * each reading `palette[hueValue]`.
   */
  function RulesFor(palettes: map<string, map<string, Hue>>, accepts: string -> bool, theme: Theme,
                    field: ColorType, refs: seq<ColorType>)
    : (r: Result<nat, ThemingError>)
    ensures r.Ok? <==> Generates(palettes, accepts, theme, field, refs)
    ensures r.Ok? ==> r.value == |theme.Color(field).value.hues|
    ensures CheckValidPalette(palettes.Keys, theme, field).Ok? && !accepts(ThemeNamePattern(theme.name)) ==>
      r == Err(InvalidThemeRegExp(theme.name))
    ensures !ColorReady(palettes.Keys, theme, field) ==>
      r == Err(InvalidPalette(FieldName(field), palettes.Keys)) || r == Err(InvalidThemeRegExp(theme.name)) ||
      r == Err(UndefinedColor(FieldName(field)))
    ensures ColorReady(palettes.Keys, theme, field) && accepts(ThemeNamePattern(theme.name)) && r.Err? ==>
      FirstUnreadableRef(palettes.Keys, theme, refs).Some? ||
      r == Err(MissingHue(FieldName(field), theme.Color(field).value.name))
  {
    match CheckValidPalette(palettes.Keys, theme, field)
    case Err(e) => Err(e)
    case Ok(_) =>
      if !accepts(ThemeNamePattern(theme.name)) then Err(InvalidThemeRegExp(theme.name))
      else
      match theme.Color(field)
      case None => Err(UndefinedColor(FieldName(field)))
      case Some(c) =>
        match FirstUnreadableRef(palettes.Keys, theme, refs)
        case Some(e) => Err(e)
        case None =>
          if HuesPresent(palettes, c) then Ok(|c.hues|)
          else Err(MissingHue(FieldName(field), c.name))
  }

  /** The rules generated for one theme: primary, then warn, then accent; the first failure throws. */
  function GenerateForTheme(palettes: map<string, map<string, Hue>>, accepts: string -> bool, theme: Theme,
                            refs: SimpleRefs)
    : (r: Result<nat, ThemingError>)
    ensures r.Ok? <==> forall f :: Generates(palettes, accepts, theme, f, refs.Of(f))
    ensures r.Ok? ==>
      && theme.primary.Some? && theme.warn.Some? && theme.accent.Some?
      && r.value == |theme.primary.value.hues| + |theme.warn.value.hues| + |theme.accent.value.hues|
    ensures r.Err? && !Generates(palettes, accepts, theme, Primary, refs.primary) ==>
      r == RulesFor(palettes, accepts, theme, Primary, refs.primary)
    ensures
      r.Err? && Generates(palettes, accepts, theme, Primary, refs.primary) &&
      !Generates(palettes, accepts, theme, Warn, refs.warn)
      ==> r == RulesFor(palettes, accepts, theme, Warn, refs.warn)
  {
    match RulesFor(palettes, accepts, theme, Primary, refs.primary)
    case Err(e) => assert refs.Of(Primary) == refs.primary; Err(e)
    case Ok(p) =>
      match RulesFor(palettes, accepts, theme, Warn, refs.warn)
      case Err(e) => assert refs.Of(Warn) == refs.warn; Err(e)
      case Ok(w) =>
        match RulesFor(palettes, accepts, theme, Accent, refs.accent)
        case Err(e) => assert refs.Of(Accent) == refs.accent; Err(e)
        case Ok(a) =>
          AllColorsGenerate(palettes, accepts, theme, refs);
          Ok(p + w + a)
  }

  lemma AllColorsGenerate(palettes: map<string, map<string, Hue>>, accepts: string -> bool, theme: Theme,
                          refs: SimpleRefs)
    requires Generates(palettes, accepts, theme, Primary, refs.primary)
    requires Generates(palettes, accepts, theme, Warn, refs.warn)
    requires Generates(palettes, accepts, theme, Accent, refs.accent)
    ensures forall f :: Generates(palettes, accepts, theme, f, refs.Of(f))
  {
    forall f ensures Generates(palettes, accepts, theme, f, refs.Of(f)) {
      match f
      case Primary =>
      case Warn =>
      case Accent =>
    }
  }

  /**
   * A theme name whose pattern `new RegExp` rejects (`c++`, `a(`) makes generation throw
   * once the first palette check passes, whatever the palettes hold.
   */
  lemma RejectedThemeNameThrows(palettes: map<string, map<string, Hue>>, accepts: string -> bool, theme: Theme,
                                refs: SimpleRefs)
    requires CheckValidPalette(palettes.Keys, theme, Primary).Ok?
    requires !accepts(ThemeNamePattern(theme.name))
    ensures GenerateForTheme(palettes, accepts, theme, refs) == Err(InvalidThemeRegExp(theme.name))
  {
  }

  lemma DefaultHuesCount()
    ensures |DefaultHues| == 4
  {
    assert DefaultHues.Keys == {"default", "hue-1", "hue-2", "hue-3"};
  }

  /** A colour that uses the default hues of a palette carrying every hue key can be generated. */
  lemma DefaultColorGenerates(cssPalettes: map<string, Palette>, c: ThemeColor)
    requires c.name in cssPalettes && HasAllHues(cssPalettes[c.name])
    requires c.hues == DefaultHues
    ensures c.name in SanitizeAll(cssPalettes) && HuesPresent(SanitizeAll(cssPalettes), c)
  {
    forall h | h in c.hues
      ensures c.hues[h] in SanitizeAll(cssPalettes)[c.name]
    {
      DefaultValueIsHue(h);
      HueKeyKept(cssPalettes[c.name], DefaultHues[h]);
    }
  }

  /**
   * A theme whose name compiles into `themeNameRegex` and whose three colours use the
   * default hues of palettes carrying every hue key generates twelve rules, whatever
   * simple variables the rules use.
   */
  lemma DefaultHuedThemeGenerates(cssPalettes: map<string, Palette>, accepts: string -> bool, t: Theme,
                                  refs: SimpleRefs)
    requires accepts(ThemeNamePattern(t.name))
    requires forall f :: t.Color(f).Some? && t.Color(f).value.hues == DefaultHues
    requires forall f :: t.Color(f).value.name in cssPalettes && HasAllHues(cssPalettes[t.Color(f).value.name])
    ensures GenerateForTheme(SanitizeAll(cssPalettes), accepts, t, refs) == Ok(12)
  {
    var palettes := SanitizeAll(cssPalettes);
    forall f ensures ColorReady(palettes.Keys, t, f) && HuesPresent(palettes, t.Color(f).value) {
      DefaultColorGenerates(cssPalettes, t.Color(f).value);
    }
    forall f ensures Generates(palettes, accepts, t, f, refs.Of(f)) {
      assert forall i :: 0 <= i < |refs.Of(f)| ==> ColorReady(palettes.Keys, t, refs.Of(f)[i]);
    }
    DefaultHuesCount();
    assert t.Color(Primary) == t.primary && t.Color(Warn) == t.warn && t.Color(Accent) == t.accent;
    assert |t.primary.value.hues| == 4 && |t.warn.value.hues| == 4 && |t.accent.value.hues| == 4;
  }

  /**
   * With blue, green and red palettes that carry every hue key, the default theme
   * generates twelve rules, given an engine that accepts `.md-default-theme`.
   */
  lemma DefaultThemeGenerates(cssPalettes: map<string, Palette>, accepts: string -> bool, refs: SimpleRefs)
    requires accepts(ThemeNamePattern("default"))
    requires "blue" in cssPalettes && HasAllHues(cssPalettes["blue"])
    requires "green" in cssPalettes && HasAllHues(cssPalettes["green"])
    requires "red" in cssPalettes && HasAllHues(cssPalettes["red"])
    ensures ProviderInit(cssPalettes).Ok?
    ensures GenerateForTheme(SanitizeAll(cssPalettes), accepts, ProviderInit(cssPalettes).value.themes["default"], refs)
      == Ok(12)
  {
    ProviderInitDefaultTheme(cssPalettes);
    var t := ProviderInit(cssPalettes).value.themes["default"];
    assert t.Color(Primary) == Some(ThemeColor("blue", DefaultHues));
    assert t.Color(Warn) == Some(ThemeColor("red", DefaultHues));
    assert t.Color(Accent) == Some(ThemeColor("green", DefaultHues));
    forall f ensures t.Color(f).Some? && t.Color(f).value.hues == DefaultHues
      && t.Color(f).value.name in cssPalettes && HasAllHues(cssPalettes[t.Color(f).value.name])
    {
      match f
      case Primary =>
      case Warn =>
      case Accent =>
    }
    assert t.name == "default";
    DefaultHuedThemeGenerates(cssPalettes, accepts, t, refs);
  }

  /** A palette that lacks a hue the theme uses makes generation throw, though the palette is registered. */
  lemma MissingHueThrows(cssPalettes: map<string, Palette>, accepts: string -> bool, refs: SimpleRefs)
    requires "blue" in cssPalettes && "green" in cssPalettes && "red" in cssPalettes
    requires "A100" !in cssPalettes["blue"]
    ensures ProviderInit(cssPalettes).Ok?
    ensures GenerateForTheme(SanitizeAll(cssPalettes), accepts, ProviderInit(cssPalettes).value.themes["default"], refs).Err?
  {
    ProviderInitDefaultTheme(cssPalettes);
    var t := ProviderInit(cssPalettes).value.themes["default"];
    assert t.primary == Some(ThemeColor("blue", DefaultHues));
    assert DefaultHues["hue-3"] == "A100";
    assert !HuesPresent(SanitizeAll(cssPalettes), t.primary.value);
  }
}
